=== FILE: README.md ===
# RenderProtocol in Dafny

RenderProtocol lets a simulation process send scene updates to a renderer process. The updates are
new meshes, new primitives, particle sets and poses, and each is a pickled Python message sent over
TCP. This project models the protocol's bookkeeping as pure Dafny functions over immutable data and
proves properties of them:

- **Message identity**: each message gets its `message_idx` from a class-wide counter. message.py
  increments the counter correctly. In mesage.py the increment is written on the instance, so the
  class counter never moves.
- **Mesh chunking**: a mesh payload is split into 61440-byte chunks, and `mesh_file` glues the
  chunks back together.
- **Reliable send**: the reply is validated (`error_reason`) and the send is retried a bounded
  number of times. When retries run out, a critical message raises and any other message is
  dropped. The mesh message is sent parent first, then one chunk at a time. mesage.py's variant
  keeps its socket on the message itself, so every call raises before anything is sent (see
  Findings); its critical check would never fire either.
- **`unpack`**, in both copies of the protocol module.
- **The server** (`AsyncServer._handle_incoming_request`):
  - it frames one request by reading until a read comes back shorter than 1024 bytes;
  - the response carries the request's id and the `unpack` error;
  - the middleware is called only when there is no error.
- **`MeshChunksHandler`**: a state machine over two maps keyed by mesh name. It holds back mesh
  messages and chunks and delivers each completed mesh exactly once. The chunks are delivered
  stably sorted by `chunk_id`.
- **mesage.py's `MessageType` enumeration** and the tag each class reports.

Modules follow the program's structure:

- `Wire` holds the message datatypes.
- `Registry` is the counter.
- `Chunker` holds the split loop and `mesh_file`.
- `MessageTypes` holds the enumeration and the tags.
- `Unpacking` models `unpack`.
- `Sender` models `send` and the mesh override of `send`.
- `ChunkOrder` models `list.sort` by `chunk_id`.
- `Reassembly` models `MeshChunksHandler`.
- `Server` models the request handler.
- `EndToEnd` constructs a mesh, sends it, and has the server answer what was sent.

Foreign code becomes values given to the model:

- The network round trip of each send attempt is a `Reply` value.
- In a whole mesh transfer (`EndToEnd.TransferMesh`), the server's middleware sees the message
  of each call of `send` that ended accepted, once, and no other. The server accepts every typed
  request that reaches it intact (`Server.RequestAcceptedIffTyped`). So, with replies that come
  back intact, a call that was rejected to the end never reached the middleware, and an accepted
  call reached it once, at its accepting attempt.
- `pickle.loads` on the server side is an `Unpickled` value, or a function from bytes to one.
- The deformable-mesh decoding of a completed payload is represented by the payload itself.

The code differs in several places from what its own doc-comments describe, such as the
docstring of `send` (message.py:52-58). This model follows the code:

- **Exceptions during an attempt are not retried.** A refused or reset connection, or a
  `pickle.loads` of the reply that raises, escapes `send`, because message.py:65-71 sits
  outside any `try`. Only a reply that arrived and was rejected leads to a retry.
  `Sender.BrokenAttemptCrashes` states this.
- **Arrival order matters.** Every `chunk_id` is 0, so reassembly restores the payload only
  when the chunks arrive in split order. See Findings.
- **`unpack` needs a `type` attribute.** `unpack` accepts a value only if it is a `BaseMessage`
  *and* has a `type` attribute, and no class of message.py defines one.
- **Some decoding failures crash the handler.** A request the unpickler rejects with something
  other than `UnpicklingError` raises before any response is written. So does a decoded object,
  other than `None`, without `message_idx`. In both cases the coroutine raises
  (`Server.Answer`). A request that unpickles to `None` is answered with id 0 and the
  not-a-message error, like an `UnpicklingError`.
- **Some requests leave the server waiting.** A request whose pickled length is a multiple of
  1024 is not framed. The server waits for a short read that the client, blocked on `recv`,
  never causes (`Server.SegmentsFrame`).

## Model

| member | source | states |
|---|---|---|
| Registry.Assign | message.py:28-36 | a construction receives the counter's current value; message.py leaves the counter one above it, mesage.py leaves the class counter unchanged |
| Registry.CurrentIdsConsecutive | message.py:28-36 | n constructions in a row receive the n consecutive values starting at the counter, which ends n higher |
| Registry.CurrentIdsStrictlyIncreasing | message.py:28-36 | ids assigned in order strictly increase, so none is reused |
| Registry.CurrentIdsFromOne | message.py:17-36 | from a freshly loaded module, n constructions receive exactly the ids 1..n |
| Registry.LegacyIdsConstant | mesage.py:44-52 | in mesage.py every construction receives the same value and the class counter never changes |
| Registry.LegacyIdsCollide | mesage.py:25-52 | in mesage.py every message built after loading has id 1, so any two ids collide |
| Registry.Construct | message.py:134-136 | `ResponseMessage` takes the request's id and error and leaves the counter alone; every other constructor consumes one counter value |
| Registry.CurrentIdsIncreaseAcrossConstructions | message.py:21-36 | however responses are interleaved, the counter advances once per non-response construction and the non-response ids strictly increase |
| Chunker.SplitToChunks | message.py:164-174 | the loop cuts the payload into ceil(n/61440) slices, all full except a last of 1..61440 bytes, none for an empty payload; their concatenation is the payload; chunk ids follow the chosen rule and message ids are consecutive |
| Chunker.SplitRound | message.py:167-173 | one round of the loop appends the next slice with the next counter value and advances `sent_size` to that slice's end |
| Chunker.SplitDone | message.py:167-174 | when `sent_size` reaches the payload length, the chunks made cut the payload |
| Chunker.NewMeshMessage | message.py:146-174 | the parent takes the counter value first, its chunks the next ones in split order, and `chunk_num` equals the number of chunks |
| Wire.MeshFile | message.py:185-190 | `mesh_file`: the chunks' bytes concatenated in list order; its partner `Chunker.MeshFileAppend` states the loop step |
| Chunker.MeshFileAppend | message.py:185-190 | `mesh_file` of a chunk list extended by one chunk is the old file followed by that chunk's bytes |
| MessageTypes.ValueOf | mesage.py:10-18 | every enum member has a value below 8 |
| MessageTypes.ValueLookupRoundTrip | mesage.py:10-18 | lookup by value inverts the value, exactly 0..7 name a member, and distinct members have distinct values |
| MessageTypes.TagsDistinct | mesage.py:147-252 | each concrete class's `type()` returns its own tag and none returns the default tag |
| MessageTypes.LegacyCriticalTest | mesage.py:103 | comparing the bound method `self.type` with an enum member is false for every class |
| MessageTypes.IntendedCriticalTest | mesage.py:64-73 | the documented test holds exactly for the mesh and primitive classes |
| Unpacking.NotAMessage | message.py:119-120 | the error for a value that is not a typed message is never empty |
| Unpacking.Unpack | message.py:115-124 | the error is empty exactly when a typed message was decoded; a decoded value is returned as is, so a decoded `None` is no message with the not-a-message error; an unpickler exception other than `UnpicklingError` escapes |
| Unpacking.CurrentUnpicklingErrorReported | message.py:121-124 | an `UnpicklingError` comes back as no message and the exception's (non-empty) text |
| Unpacking.LegacyUnpicklingErrorRaises | mesage.py:125-133 | in mesage.py the same failure escapes `unpack`, because `msg` is unbound |
| Sender.ErrorReason | message.py:73-78 | the reason is empty exactly when the reply is a response with the request's id and an empty error; a mismatched id always gives a non-empty reason |
| Sender.AttemptBudget | message.py:84-89 | a first call can make four attempts and every call at least one |
| Sender.Critical | message.py:92-93 | the test between raising and warning: the mesh and primitive classes in message.py; in mesage.py:103 the comparison of a bound method with a tag, which never holds |
| Sender.Connect | message.py:65 | message.py opens a new socket on every attempt; mesage.py:80-81 opens one only when `self.client` is `None`, and a mesage.py response, whose `__init__` (mesage.py:143-145) skips the base class and so has no `self.client`, opens none |
| Sender.Send | message.py:49-99 | a call makes at least one attempt and at most the budget; the critical error is raised only for a critical sender |
| Sender.MismatchReason | message.py:75-76 | the reason for a reply to another request is never empty |
| Sender.RetryStep | message.py:84-89 | a reply that arrived and was rejected, with retries left, leads to exactly one retry: the call ends as the retry does, one attempt later |
| Sender.RetryStepSockets | message.py:84-89 | a retried call made the sockets of its retry plus the one it opened, and closed that one before retrying |
| Sender.SingleAttempt | message.py:64-99 | an attempt that is not retried is the call's only one: success only on an accepted reply, the critical error or a drop only with no retries left, a drop only for a non-critical message |
| Sender.SendRejectedBeforeLast | message.py:80-89 | every attempt before the last received a reply and that reply was rejected |
| Sender.SendDeliveredAccepted | message.py:80-82 | a delivered message had the reply to its last attempt accepted |
| Sender.SendExhausts | message.py:84-99 | the critical error and the drop both come only after the whole budget of attempts, and a drop only for a message that is not critical |
| Sender.SendSockets | message.py:64-99 | message.py opens a socket on every attempt and closes each unless an exception escapes; mesage.py opens one exactly when it holds none and is not a response, and closes none |
| Sender.DeliveredAtFirstAccepted | message.py:80-89 | the first accepted reply ends the call with success after exactly that many attempts |
| Sender.SustainedFailure | message.py:84-99 | when every reply is rejected, exactly the budget of attempts is made and the call raises for a critical message and drops any other |
| Sender.BrokenAttemptCrashes | message.py:65-71 | an attempt that raises ends the call there, and message.py leaves that attempt's socket open |
| Sender.CurrentExhaustedRetries | message.py:84-99 | sustained failure of a first call makes four attempts over four sockets, closes them all, and raises exactly for mesh and primitive messages |
| Sender.LegacySendCrashes | mesage.py:61-62 | in mesage.py every call raises at its first attempt, before any reply is read, whatever the class and the replies, and closes nothing; a message other than a response that holds no socket is left holding the one it created, while a response, lacking `self.client`, raises `AttributeError` at line 80 and creates none |
| Sender.LegacyResendCrashes | mesage.py:80-84 | a second call reuses the socket the first left in `self.client`, creates none, and raises at `pickle.dumps(self)`, a response raising at line 80 again, so no call of a mesage.py message reaches the server |
| Sender.MissingTypeCrashesOnRetry | message.py:84-89 | a class without a `type` attribute raises on its first rejected reply instead of retrying, leaving its socket open |
| Sender.SendChunks | message.py:181-182 | the chunks are sent in order, each with the retry policy; sending stops at the first exception and never ends in the critical error |
| Sender.MeshSend | message.py:176-183 | the parent is sent first with its chunks detached, then each chunk in order; the chunks are reattached unless an exception escaped |
| Sender.CriticalSettled | message.py:91-95 | a call of `send` on a mesh message that raised nothing was accepted, since a critical message raises instead of being dropped |
| Sender.MeshSendSettled | message.py:176-183 | a mesh send that raised nothing had its parent accepted, since a mesh message is never dropped, and each chunk either accepted or dropped |
| ChunkOrder.SortById | server_util.py:37 | the in-place sort by `chunk_id` as a stable insertion sort; its partners `SortByIdSorts` and `SortByIdStable` state order, permutation and stability |
| ChunkOrder.SortByIdSorts | server_util.py:37 | the sorted buffer is ordered by `chunk_id` and holds exactly the buffered chunks |
| ChunkOrder.SortByIdStable | server_util.py:37 | for every id, the chunks carrying it keep their buffered order |
| ChunkOrder.EqualIdsKeepArrivalOrder | server_util.py:37 | when all chunks carry the same id, sorting leaves the buffer in arrival order |
| ChunkOrder.AnyArrivalOrderSortsBack | server_util.py:37 | chunks with strictly increasing ids are restored to that order whatever order they arrived in |
| Reassembly.Completes | server_util.py:35-36 | the completion test: the parent is present and the buffer with this chunk holds `chunk_num` chunks |
| Reassembly.Completed | server_util.py:37-49 | the delivery for a completed mesh: the parent with the sorted chunks appended, or the concatenated payload for a deformable-mesh name |
| Reassembly.Step | server_util.py:25-51 | a call downstream is made exactly for a non-mesh, non-chunk message and for a completing chunk; other messages pass unchanged and leave the state alone; a completed mesh leaves no entry behind |
| Reassembly.StepStoresParent | server_util.py:26-27 | a mesh message is stored under its name, replacing any earlier one, and is not passed on |
| Reassembly.StepBuffersChunk | server_util.py:28-33 | a non-completing chunk is appended to its name's buffer, which is created if absent |
| Reassembly.StepCompletes | server_util.py:35-49 | a completing chunk removes both entries and delivers the parent with the buffer plus this chunk sorted by `chunk_id`, or its payload for a deformable-mesh name |
| Reassembly.RunAppend | server_util.py:25-51 | the handler fed two message sequences in turn ends as if fed their concatenation |
| Reassembly.ChunksWithoutParentBuffer | server_util.py:28-36 | chunks with no parent are only buffered, in arrival order; nothing is delivered |
| Reassembly.ChunksCompleteTransfer | server_util.py:28-49 | once the parent is present, the chunk that brings the buffer to `chunk_num` delivers exactly once and clears the name |
| Reassembly.LastChunkCompletes | server_util.py:35-49 | a single completing chunk delivers once and clears the name |
| Reassembly.BufferOne | server_util.py:28-33 | a chunk that does not complete its mesh changes only its own name's buffer |
| Reassembly.EmptyKeysMatch | server_util.py:20-22 | the empty handler stores no parent under another name |
| Reassembly.RunKeepsKeys | server_util.py:26-49 | a handler storing every parent under its own name still does after any run |
| Reassembly.ReachableKeysMatch | server_util.py:20-49 | every state reached from the empty handler stores each parent under its own name |
| Reassembly.IncompleteChunksStall | server_util.py:28-36 | chunks of a stored parent that stay short of its `chunk_num` are only buffered: nothing is delivered and the parent stays stored |
| Reassembly.OverfullParentStalls | server_util.py:35-36 | a parent whose buffer already holds `chunk_num` chunks or more stays stored, its buffer never shrinking, as long as no new mesh message of that name arrives; from a handler that stores each parent under its own name, no mesh message of that name is passed on meanwhile (a replacing parent can still complete) |
| Reassembly.ZeroChunkParentNeverDelivered | server_util.py:26-36 | a parent with `chunk_num == 0` is stored and stays stored as long as no new mesh message of that name arrives; from a handler that stores each parent under its own name, no mesh message of that name is passed on meanwhile |
| Reassembly.LateParentNeverDelivered | server_util.py:26-36 | a parent that arrives after all of its chunks stays stored as long as no new mesh message of that name arrives; from a handler that stores each parent under its own name, no mesh message of that name is passed on meanwhile |
| Reassembly.ParentAfterChunks | server_util.py:26-33 | chunks that arrived ahead of their parent stay buffered when it arrives, and nothing is delivered |
| Reassembly.Transfer | server_util.py:25-49 | chunks before and after the parent lead to exactly one delivery, with all chunks sorted by id, and the handler returns to its previous state |
| Reassembly.PositionalIdsRestoreAnyOrder | server_util.py:37-49 | with ids in split order, any arrival order delivers the constructed mesh message, or the original payload for a deformable-mesh name |
| Reassembly.AsWrittenReversedArrivalCorrupts | message.py:164-174 | with every id 0, a two-chunk mesh whose chunks arrive reversed is delivered with a payload different from the original |
| Server.ReadRequest | server_util.py:79-83 | the request is the reads up to and including the first short read, every earlier read is full, and without a short read every read is consumed and the loop is still waiting |
| Server.SegmentsFrame | server_util.py:79-83 | a request delivered in 1024-byte pieces is framed exactly when its length is not a multiple of 1024; a closed stream frames it always |
| Server.IdxAttr | server_util.py:87-89 | the id read from `request.message_idx`: a message's own id, absent for `None` and for a foreign object without the attribute |
| Server.Answer | server_util.py:86-98 | a response is written unless `unpack` raised or a decoded object other than `None` has no `message_idx`; its id is the request's (0 when `unpack` returned `None`) and its error the `unpack` error, empty exactly for a typed message; only then is the middleware stepped |
| Server.NoneRequestRejected | server_util.py:86-92 | a request that unpickles to `None` is answered with id 0 and the not-a-message error, which no sender accepts |
| Server.Serve | server_util.py:79-98 | no response is written and the middleware is untouched until a short read ends the request; then the request is answered |
| Server.RequestAcceptedIffTyped | server_util.py:86-92 | a message that arrives intact is acknowledged with its own id, and the sender accepts the reply exactly when the message has a `type` attribute |
| Server.UndecodableRequestRejected | server_util.py:88-92 | the reply to an undecodable request never satisfies a sender |
| EndToEnd.SentByMeshSend | message.py:176-183 | a mesh send that raised nothing put the detached parent and then every chunk on the wire |
| EndToEnd.InOrderArrivalSortsToItself | server_util.py:37 | chunks arriving in split order are left in that order by the sort under either id rule |
| EndToEnd.InOrderTransfer | server_util.py:25-49 | parent then chunks in split order delivers exactly the constructed mesh (or its payload) and leaves the handler as it was |
| EndToEnd.TypedServeAllRuns | server_util.py:86-98 | messages with a `type` attribute all pass the server's gate, so the middleware sees exactly the messages sent |
| EndToEnd.UntypedServeAllStops | server_util.py:97-98 | messages without a `type` attribute never reach the middleware |
| EndToEnd.ArrivalsCount | message.py:80-99 | everything sent reaches the middleware exactly when every call was accepted; otherwise fewer messages arrive than were sent |
| EndToEnd.ArrivedChunksNamed | message.py:181-182 | what arrives of a mesh's chunk sends are chunks of that mesh |
| EndToEnd.ParentWithMissingChunks | server_util.py:26-36 | a parent followed by fewer of its chunks than it declares stays stored and nothing is delivered |
| EndToEnd.IncompleteLogStalls | message.py:176-183 | an accepted parent whose chunk calls were not all accepted, or who has none, stays stored and nothing is delivered |
| EndToEnd.AcceptedSendTransfers | message.py:176-183 | a typed mesh send whose every call was accepted delivers a non-empty payload exactly once, as constructed, and leaves the middleware as it was |
| EndToEnd.SettledSendStalls | message.py:176-183 | a typed mesh send that raised nothing but dropped a chunk, or had none, leaves its parent stored and delivers nothing |
| EndToEnd.TransferMesh | message.py:146-183 | construct the message, send it through `MeshSend` with the given replies, and have the server answer what arrives: when every call is accepted and messages have a `type` attribute, a non-empty payload is delivered exactly once and unchanged; when a chunk is dropped, or the payload is empty, nothing is delivered and the parent stays stored; without a `type` attribute nothing reaches the middleware |

## Left out

- Sockets, `asyncio.start_server`, `serve_forever`, `writer.drain`/`close` and the logger are I/O. Each round trip is a `Reply` value and each request a sequence of reads.
- `pickle.dumps` and `pickle.loads` are a foreign codec. A decoding result is an `Unpickled` value or a function to one. The deformable-mesh decoding of a completed payload (server_util.py:45) is represented by the payload, and its own exceptions are not modelled.
- The `threading.RLock` around the counter, and the `release` that is never called (message.py:36, mesage.py:52), concern concurrency. The counter is sequential.
- `create_primitive_in_blender` calls `eval` on a type name, which is a dynamic foreign call.
- numpy and open3d payloads are opaque values: poses, particles, initial poses and the 7-element pose assertion of message.py:229.
- utils.py is a thin pickle/socket wrapper outside the protocol logic. `__init__.py` only re-exports.
- `MeshesMessage`, which server_util.py imports, is not defined in message.py. It is given the shape of `AddRigidBodyMeshMessage`.
- Frame-index tracking has no code in the repository.
- Warning and exception texts are left out, except the `unpack` error and the `error_reason` strings. The `unpack` error renders `{type(msg)}` as `<class '…'>` with the class's qualified name but without the defining module's path, which depends on how the package is imported. `raise "<str>"` raising `TypeError` instead is the `Fatal` outcome.
- mesage.py's retry and warning branches (mesage.py:97-109) are never reached, because every attempt raises first (see Findings). Only the critical test of line 103 is modelled on its own (`MessageTypes.LegacyCriticalTest`). The exception raised is not distinguished: `connect` with the string port `'4490'`, or `pickle.dumps(self)` meeting the stored socket.
- mesage.py's mesh message sends its file whole, with no chunking. Its per-class fields are not modelled beyond the `type()` tags.
- Concurrent requests in the server's event loop are not modelled. Each connection is handled to completion before the next.
- Unpacking.Reason: the text of an `UnpicklingError` is assumed non-empty. The unpickler is foreign code and its messages are not part of this repository. The non-empty error of `Server.Answer` and `Server.UndecodableRequestRejected` rest on this assumption.

## Findings

| source | as written | input that shows it | evidently intended | confidence | as-written member | corrected member |
|---|---|---|---|---|---|---|
| message.py:164-174 | `chunk_id` is `len(chunks)` of a local list that is never appended to, so every chunk gets id 0 and sorting keeps arrival order | a 61441-byte payload whose bytes 0 and 61440 differ, its two chunks handled in reverse order | `chunk_id` is the chunk's position, so any arrival order restores the payload | medium, not executed (reordering needs two requests to race in the server) | Reassembly.AsWrittenReversedArrivalCorrupts | Reassembly.PositionalIdsRestoreAnyOrder |
| mesage.py:44-52 | `self._message_cnt += 1` creates an instance attribute, so the class counter stays at 1 | construct two messages after loading the module: both get id 1 | each construction takes the next class-wide id | high, not executed | Registry.LegacyIdsCollide | Registry.CurrentIdsStrictlyIncreasing |
| mesage.py:61-84 | `_prepare_connection` stores the socket in `self.client` before connecting, so `pickle.dumps(self)` meets it and raises; the string port makes `connect` raise even earlier (a `ResponseMessage`, having no `self.client`, raises at line 80 instead) | the first `send()` of any mesage.py message raises, and so does every later one | the socket is a local of `send` and the message pickles without it, as in message.py | high, not executed | Sender.LegacySendCrashes | Sender.DeliveredAtFirstAccepted |
| mesage.py:103-105 | the critical check compares the bound method `self.type` with an enum member, which never holds | `self.type == MessageType.ADD_MESH_MSG` for an `AddRigidBodyMeshMessage` is `False`; the branch is latent, since it can only be reached once the previous row is corrected | exhausted retries raise for mesh and primitive messages | high, not executed | MessageTypes.LegacyCriticalTest | MessageTypes.IntendedCriticalTest |
| mesage.py:125-133 | the `UnpicklingError` handler never binds `msg`, so `return msg, err` raises | request bytes the unpickler rejects with `UnpicklingError` | return no message and the exception text | high, not executed | Unpacking.LegacyUnpicklingErrorRaises | Unpacking.CurrentUnpicklingErrorReported |
| message.py:86-98 | the warnings read `self.type`, which no class of message.py defines | any message whose first reply is rejected raises `AttributeError` instead of retrying | the warning is emitted and the send retried | medium, not executed (a `type` attribute may be defined outside the shown code) | Sender.MissingTypeCrashesOnRetry | Sender.SustainedFailure |

=== FILE: chunk_order.dfy ===
/** `list.sort(key=lambda x: x.chunk_id)` on a chunk buffer: Python's sort is stable, so it is
    modelled as an insertion sort that places each chunk after every chunk whose id is not
    larger. */
module ChunkOrder {
  import opened Wire

  predicate SortedById(s: seq<Chunk>) {
    forall i, j :: 0 <= i < j < |s| ==> s[i].chunkId <= s[j].chunkId
  }

  predicate StrictlySortedById(s: seq<Chunk>) {
    forall i, j :: 0 <= i < j < |s| ==> s[i].chunkId < s[j].chunkId
  }

  /** The chunks of `s` carrying `chunk_id == k`, in their order in `s`. */
  function WithId(s: seq<Chunk>, k: int): seq<Chunk> {
    if s == [] then []
    else (if s[0].chunkId == k then [s[0]] else []) + WithId(s[1..], k)
  }

  function Insert(c: Chunk, s: seq<Chunk>): seq<Chunk> {
    if s == [] then [c]
    else if c.chunkId < s[0].chunkId then [c] + s
    else [s[0]] + Insert(c, s[1..])
  }

  /** The buffer after the in-place sort. */
  function SortById(s: seq<Chunk>): seq<Chunk> {
    if s == [] then [] else Insert(s[|s| - 1], SortById(s[..|s| - 1]))
  }

  /** Every chunk of `s` has an id of at least `k`. */
  predicate AllAtLeast(s: seq<Chunk>, k: int) {
    forall i :: 0 <= i < |s| ==> k <= s[i].chunkId
  }

  lemma {:induction false} InsertKeepsLowerBound(c: Chunk, s: seq<Chunk>, k: int)
    requires AllAtLeast(s, k) && k <= c.chunkId
    ensures AllAtLeast(Insert(c, s), k)
    decreases |s|
  {
    if s != [] && c.chunkId >= s[0].chunkId {
      InsertKeepsLowerBound(c, s[1..], k);
    }
  }

  lemma {:induction false} InsertPermutes(c: Chunk, s: seq<Chunk>)
    ensures multiset(Insert(c, s)) == multiset(s) + multiset{c}
    ensures |Insert(c, s)| == |s| + 1
    decreases |s|
  {
    if s != [] && c.chunkId >= s[0].chunkId {
      InsertPermutes(c, s[1..]);
      assert s == [s[0]] + s[1..];
      assert Insert(c, s) == [s[0]] + Insert(c, s[1..]);
    }
  }

  lemma ConsSorted(x: Chunk, t: seq<Chunk>)
    requires SortedById(t) && AllAtLeast(t, x.chunkId)
    ensures SortedById([x] + t)
  {
    var r := [x] + t;
    forall i, j | 0 <= i < j < |r|
      ensures r[i].chunkId <= r[j].chunkId
    {
      assert r[j] == t[j - 1];
      if i > 0 {
        assert r[i] == t[i - 1];
      }
    }
  }

  /** A sorted sequence is bounded below by its head's id. */
  lemma SortedAtLeastHead(s: seq<Chunk>, k: int)
    requires SortedById(s) && s != [] && k <= s[0].chunkId
    ensures AllAtLeast(s, k) && AllAtLeast(s[1..], k)
  {
    forall i | 0 <= i < |s[1..]|
      ensures k <= s[1..][i].chunkId
    {
      assert s[1..][i] == s[i + 1];
    }
  }

  lemma {:induction false} InsertSorted(c: Chunk, s: seq<Chunk>)
    requires SortedById(s)
    ensures SortedById(Insert(c, s))
    ensures multiset(Insert(c, s)) == multiset(s) + multiset{c}
    ensures |Insert(c, s)| == |s| + 1
    decreases |s|
  {
    InsertPermutes(c, s);
    if s == [] {
    } else if c.chunkId < s[0].chunkId {
      SortedAtLeastHead(s, c.chunkId);
      ConsSorted(c, s);
    } else {
      assert SortedById(s[1..]);
      InsertSorted(c, s[1..]);
      SortedAtLeastHead(s, s[0].chunkId);
      InsertKeepsLowerBound(c, s[1..], s[0].chunkId);
      ConsSorted(s[0], Insert(c, s[1..]));
    }
  }

  /** The sorted buffer is ordered by `chunk_id` and holds exactly the buffered chunks. */
  lemma {:induction false} SortByIdSorts(s: seq<Chunk>)
    ensures SortedById(SortById(s))
    ensures multiset(SortById(s)) == multiset(s)
    ensures |SortById(s)| == |s|
    decreases |s|
  {
    if s != [] {
      SortByIdSorts(s[..|s| - 1]);
      InsertSorted(s[|s| - 1], SortById(s[..|s| - 1]));
      assert s == s[..|s| - 1] + [s[|s| - 1]];
    }
  }

  lemma WithIdAppend(a: seq<Chunk>, b: seq<Chunk>, k: int)
    ensures WithId(a + b, k) == WithId(a, k) + WithId(b, k)
    decreases |a|
  {
    if a == [] {
      assert a + b == b;
    } else {
      WithIdAppend(a[1..], b, k);
      assert a + b != [] && (a + b)[0] == a[0] && (a + b)[1..] == a[1..] + b;
      calc {
        WithId(a + b, k);
        (if a[0].chunkId == k then [a[0]] else []) + WithId(a[1..] + b, k);
        (if a[0].chunkId == k then [a[0]] else []) + (WithId(a[1..], k) + WithId(b, k));
        ((if a[0].chunkId == k then [a[0]] else []) + WithId(a[1..], k)) + WithId(b, k);
        WithId(a, k) + WithId(b, k);
      }
    }
  }

  lemma {:induction false} WithIdNoneBelow(s: seq<Chunk>, k: int)
    requires SortedById(s) && s != [] && k < s[0].chunkId
    ensures WithId(s, k) == []
    decreases |s|
  {
    if |s| > 1 {
      WithIdNoneBelow(s[1..], k);
    }
  }

  lemma {:induction false} InsertStable(c: Chunk, s: seq<Chunk>, k: int)
    requires SortedById(s)
    ensures WithId(Insert(c, s), k) == WithId(s, k) + (if c.chunkId == k then [c] else [])
    decreases |s|
  {
    var tail := if c.chunkId == k then [c] else [];
    if s == [] {
      assert WithId([c], k) == tail + WithId([c][1..], k);
    } else if c.chunkId < s[0].chunkId {
      var r := [c] + s;
      assert Insert(c, s) == r && r[0] == c && r[1..] == s;
      assert WithId(r, k) == tail + WithId(s, k);
      if c.chunkId == k {
        WithIdNoneBelow(s, k);
      } else {
        assert tail == [];
      }
    } else {
      var rest := Insert(c, s[1..]);
      var r := [s[0]] + rest;
      var head := if s[0].chunkId == k then [s[0]] else [];
      assert Insert(c, s) == r && r[0] == s[0] && r[1..] == rest;
      assert WithId(r, k) == head + WithId(rest, k);
      assert SortedById(s[1..]);
      InsertStable(c, s[1..], k);
      assert WithId(s, k) == head + WithId(s[1..], k);
    }
  }

  /** Stability: for every id, the chunks carrying it keep their buffered order. */
  lemma {:induction false} SortByIdStable(s: seq<Chunk>, k: int)
    ensures WithId(SortById(s), k) == WithId(s, k)
    decreases |s|
  {
    if s != [] {
      var init := s[..|s| - 1];
      var last := s[|s| - 1];
      var tail := if last.chunkId == k then [last] else [];
      var sortedInit := SortById(init);
      assert WithId(SortById(s), k) == WithId(sortedInit, k) + tail by {
        assert SortById(s) == Insert(last, sortedInit);
        SortByIdSorts(init);
        InsertStable(last, sortedInit, k);
      }
      SortByIdStable(init, k);
      assert WithId(s, k) == WithId(init, k) + tail by {
        assert WithId([last], k) == tail by {
          assert [last][1..] == [];
        }
        WithIdAppend(init, [last], k);
        assert s == init + [last];
      }
    }
  }

  lemma {:induction false} WithIdAll(s: seq<Chunk>, k: int)
    requires forall i :: 0 <= i < |s| ==> s[i].chunkId == k
    ensures WithId(s, k) == s
    decreases |s|
  {
    if s != [] {
      WithIdAll(s[1..], k);
    }
  }

  /** When all buffered chunks carry the same id, sorting leaves the buffer in arrival order. */
  lemma EqualIdsKeepArrivalOrder(s: seq<Chunk>, k: int)
    requires forall i :: 0 <= i < |s| ==> s[i].chunkId == k
    ensures SortById(s) == s
  {
    var r := SortById(s);
    SortByIdSorts(s);
    SortByIdStable(s, k);
    forall i | 0 <= i < |r|
      ensures r[i].chunkId == k
    {
      assert r[i] in multiset(s);
    }
    WithIdAll(s, k);
    WithIdAll(r, k);
  }

  /** The heads agree: each is in the other, and neither can exceed the other's id. */
  lemma SameHead(a: seq<Chunk>, b: seq<Chunk>)
    requires StrictlySortedById(a) && SortedById(b)
    requires a != [] && multiset(a) == multiset(b)
    ensures b != [] && a[0] == b[0]
  {
    assert a[0] in multiset(b);
    assert b != [];
    assert b[0] in multiset(a);
    var j :| 0 <= j < |a| && a[j] == b[0];
    var i :| 0 <= i < |b| && b[i] == a[0];
  }

  lemma TailsSameChunks(a: seq<Chunk>, b: seq<Chunk>)
    requires a != [] && b != [] && a[0] == b[0]
    requires multiset(a) == multiset(b)
    ensures multiset(a[1..]) == multiset(b[1..])
  {
    assert a == [a[0]] + a[1..];
    assert b == [b[0]] + b[1..];
    var ma, mb := multiset(a[1..]), multiset(b[1..]);
    assert multiset(a) == multiset{a[0]} + ma;
    assert multiset(b) == multiset{a[0]} + mb;
    forall x
      ensures ma[x] == mb[x]
    {
      assert multiset(a)[x] == multiset{a[0]}[x] + ma[x];
      assert multiset(b)[x] == multiset{a[0]}[x] + mb[x];
    }
    assert ma == mb;
  }

  /** A sorted sequence that holds the same chunks as a strictly sorted one is that sequence. */
  lemma {:induction false} SortedPermutationUnique(a: seq<Chunk>, b: seq<Chunk>)
    requires StrictlySortedById(a) && SortedById(b)
    requires multiset(a) == multiset(b)
    ensures a == b
    decreases |a|
  {
    if a == [] {
      assert |multiset(b)| == 0;
    } else {
      SameHead(a, b);
      TailsSameChunks(a, b);
      SortedPermutationUnique(a[1..], b[1..]);
    }
  }

  /** Chunks whose ids strictly increase in transfer order are put back in that order by the
      sort, whatever order they were buffered in. */
  lemma AnyArrivalOrderSortsBack(chunks: seq<Chunk>, arrived: seq<Chunk>)
    requires StrictlySortedById(chunks)
    requires multiset(arrived) == multiset(chunks)
    ensures SortById(arrived) == chunks
  {
    SortByIdSorts(arrived);
    SortedPermutationUnique(chunks, SortById(arrived));
  }
}

=== FILE: chunker.dfy ===
/** Construction of a mesh message in message.py: the parent takes a counter value, then its
    payload is cut into `CHUNK_SIZE` slices, each wrapped in a `Chunk` message that takes the
    next counter value. `mesh_file` concatenates the slices back. */
module Chunker {
  import opened Wire
  import opened Registry

  /** `AddRigidBodyMeshMessage.CHUNK_SIZE` (60 KiB). */
  const ChunkSize: nat := 61440

  /** The number of slices a payload of `n` bytes is cut into: n / ChunkSize rounded up. */
  function SliceCount(n: nat): nat {
    (n + ChunkSize - 1) / ChunkSize
  }

  /** How a chunk's `chunk_id` is chosen. `AsWritten` is the code of message.py, which reads the
      length of a local list that nothing is ever appended to; `Positional` is the chunk's index
      in split order, which the server's sort by `chunk_id` evidently expects. */
  datatype ChunkIdRule = AsWritten | Positional

  /** The `chunk_id` of the `i`-th chunk under `rule`. */
  function ChunkIdOf(rule: ChunkIdRule, i: nat): int {
    match rule
    case AsWritten => 0
    case Positional => i
  }

  /** The bytes from offset `i * ChunkSize` up to the next boundary or the end of `payload`. */
  function SliceAt(payload: Bytes, i: nat): Bytes
    requires i * ChunkSize <= |payload|
  {
    payload[i * ChunkSize .. Min((i + 1) * ChunkSize, |payload|)]
  }

  /** `chunks` cut `payload` into consecutive full-size slices followed by one non-empty last slice. */
  predicate CutInto(chunks: seq<Chunk>, payload: Bytes) {
    && |chunks| == SliceCount(|payload|)
    && (payload == [] <==> chunks == [])
    && (forall i :: 0 <= i < |chunks| - 1 ==> |chunks[i].data| == ChunkSize)
    && (chunks != [] ==> 1 <= |chunks[|chunks| - 1].data| <= ChunkSize)
    && (forall i :: 0 <= i < |chunks| ==> i * ChunkSize <= |payload| && chunks[i].data == SliceAt(payload, i))
    && MeshFile(chunks) == payload
  }

  lemma SliceCountOf(n: nat, k: nat)
    requires k == 0 ==> n == 0
    requires k > 0 ==> (k - 1) * ChunkSize < n <= k * ChunkSize
    ensures SliceCount(n) == k
  {
  }

  lemma MeshFileAppend(chunks: seq<Chunk>, c: Chunk)
    ensures MeshFile(chunks + [c]) == MeshFile(chunks) + c.data
  {
    assert (chunks + [c])[..|chunks|] == chunks;
  }

  /** Chunks holding the consecutive slices of `payload`, as many as it has, cut it. */
  lemma SlicesCutInto(chunks: seq<Chunk>, payload: Bytes)
    requires |chunks| == SliceCount(|payload|) && MeshFile(chunks) == payload
    requires forall i :: 0 <= i < |chunks| ==> i * ChunkSize <= |payload| && chunks[i].data == SliceAt(payload, i)
    ensures CutInto(chunks, payload)
  {
    forall i | 0 <= i < |chunks| - 1
      ensures |chunks[i].data| == ChunkSize
    {
      assert (i + 1) * ChunkSize <= |payload|;
    }
  }

  /** While bytes remain after `n` full slices, the next round's bounds are those of slice `n`. */
  lemma NextSlice(payload: Bytes, n: nat, sentSize: nat)
    requires sentSize == Min(n * ChunkSize, |payload|) && sentSize < |payload|
    ensures sentSize == n * ChunkSize
    ensures Min(sentSize + ChunkSize, |payload|) == Min((n + 1) * ChunkSize, |payload|)
    ensures n * ChunkSize < Min(sentSize + ChunkSize, |payload|)
    ensures SliceAt(payload, n) == payload[sentSize..Min(sentSize + ChunkSize, |payload|)]
  {
  }

  /** The state of the split loop after `|chunks|` rounds: `sentSize` bytes are covered, by the
      slices of `payload` in order, and chunk `i` took the counter value `first + i`. */
  predicate SplitSoFar(first: int, meshName: string, payload: Bytes, rule: ChunkIdRule, chunks: seq<Chunk>, sentSize: nat) {
    && sentSize <= |payload|
    && sentSize == Min(|chunks| * ChunkSize, |payload|)
    && (chunks != [] ==> (|chunks| - 1) * ChunkSize < sentSize)
    && MeshFile(chunks) == payload[..sentSize]
    && (forall i :: 0 <= i < |chunks| ==>
          i * ChunkSize <= |payload| && chunks[i] == Chunk(first + i, meshName, ChunkIdOf(rule, i), SliceAt(payload, i)))
  }

  /** One round of the split loop keeps its state. */
  lemma SplitRound(first: int, meshName: string, payload: Bytes, rule: ChunkIdRule, chunks: seq<Chunk>, sentSize: nat)
    requires SplitSoFar(first, meshName, payload, rule, chunks, sentSize) && sentSize < |payload|
    ensures var end := Min(sentSize + ChunkSize, |payload|);
      var chunk := Chunk(first + |chunks|, meshName, ChunkIdOf(rule, |chunks|), payload[sentSize..end]);
      sentSize < end && SplitSoFar(first, meshName, payload, rule, chunks + [chunk], end)
  {
    var end := Min(sentSize + ChunkSize, |payload|);
    var chunk := Chunk(first + |chunks|, meshName, ChunkIdOf(rule, |chunks|), payload[sentSize..end]);
    NextSlice(payload, |chunks|, sentSize);
    RoundFile(payload, chunks, chunk, sentSize, end);
    RoundChunks(first, meshName, payload, rule, chunks, chunk);
  }

  lemma RoundFile(payload: Bytes, chunks: seq<Chunk>, chunk: Chunk, sentSize: nat, end: nat)
    requires sentSize <= end <= |payload|
    requires MeshFile(chunks) == payload[..sentSize] && chunk.data == payload[sentSize..end]
    ensures MeshFile(chunks + [chunk]) == payload[..end]
  {
    MeshFileAppend(chunks, chunk);
    assert payload[..sentSize] + payload[sentSize..end] == payload[..end];
  }

  lemma RoundChunks(first: int, meshName: string, payload: Bytes, rule: ChunkIdRule, chunks: seq<Chunk>, chunk: Chunk)
    requires forall i :: 0 <= i < |chunks| ==>
      i * ChunkSize <= |payload| && chunks[i] == Chunk(first + i, meshName, ChunkIdOf(rule, i), SliceAt(payload, i))
    requires |chunks| * ChunkSize <= |payload|
    requires chunk == Chunk(first + |chunks|, meshName, ChunkIdOf(rule, |chunks|), SliceAt(payload, |chunks|))
    ensures forall i :: 0 <= i < |chunks + [chunk]| ==>
      i * ChunkSize <= |payload| && (chunks + [chunk])[i] == Chunk(first + i, meshName, ChunkIdOf(rule, i), SliceAt(payload, i))
  {
    var chunks' := chunks + [chunk];
    forall i | 0 <= i < |chunks'|
      ensures i * ChunkSize <= |payload| && chunks'[i] == Chunk(first + i, meshName, ChunkIdOf(rule, i), SliceAt(payload, i))
    {
      if i < |chunks| {
        assert chunks'[i] == chunks[i];
      }
    }
  }

  /** When the loop has covered the whole payload, its chunks cut it. */
  lemma SplitDone(first: int, meshName: string, payload: Bytes, rule: ChunkIdRule, chunks: seq<Chunk>)
    requires SplitSoFar(first, meshName, payload, rule, chunks, |payload|)
    ensures CutInto(chunks, payload)
    ensures forall i :: 0 <= i < |chunks| ==>
      chunks[i].idx == first + i && chunks[i].meshName == meshName && chunks[i].chunkId == ChunkIdOf(rule, i)
  {
    SliceCountOf(|payload|, |chunks|);
    assert payload[..|payload|] == payload;
    SlicesCutInto(chunks, payload);
  }

  /** `_split_file_content_to_chunks`: the loop advances `sent_size` by at most `CHUNK_SIZE` per
      round and stops exactly at `total_size`; each round constructs one `Chunk`, which consumes a
      counter value. */
  method SplitToChunks(c: Counter, meshName: string, payload: Bytes, rule: ChunkIdRule)
    returns (chunks: seq<Chunk>, c': Counter)
    ensures CutInto(chunks, payload)
    ensures forall i :: 0 <= i < |chunks| ==>
      chunks[i].idx == c.next + i && chunks[i].meshName == meshName && chunks[i].chunkId == ChunkIdOf(rule, i)
    ensures c'.next == c.next + |chunks|
  {
    var sentSize := 0;
    var totalSize := |payload|;
    // the local list `chunks` of message.py:166, which is never appended to
    var localChunks: seq<Chunk> := [];
    chunks := [];
    c' := c;
    while sentSize < totalSize
      invariant SplitSoFar(c.next, meshName, payload, rule, chunks, sentSize)
      invariant localChunks == []
      invariant c'.next == c.next + |chunks|
      decreases totalSize - sentSize
    {
      var chunkId := if rule == AsWritten then |localChunks| else |chunks|;
      var end := Min(sentSize + ChunkSize, totalSize);
      var (idx, c1) := Assign(Current, c');
      assert idx == c.next + |chunks| && c1.next == idx + 1;
      var chunk := Chunk(idx, meshName, chunkId, payload[sentSize..end]);
      SplitRound(c.next, meshName, payload, rule, chunks, sentSize);
      chunks := chunks + [chunk];
      c' := c1;
      sentSize := end;
    }
    SplitDone(c.next, meshName, payload, rule, chunks);
  }

  /** `AddRigidBodyMeshMessage.__init__`: the parent takes its id before any of its chunks, the
      chunks take the following ids in split order, and `chunk_num` is the number of chunks. */
  method NewMeshMessage(c: Counter, meshName: string, payload: Bytes, rule: ChunkIdRule)
    returns (m: Mesh, c': Counter)
    ensures m.idx == c.next && m.meshName == meshName
    ensures m.chunkNum == |m.chunks|
    ensures CutInto(m.chunks, payload)
    ensures forall i :: 0 <= i < |m.chunks| ==>
      m.chunks[i].idx == m.idx + 1 + i && m.chunks[i].meshName == meshName
      && m.chunks[i].chunkId == ChunkIdOf(rule, i)
    ensures c'.next == c.next + 1 + |m.chunks|
  {
    var (idx, c1) := Assign(Current, c);
    var chunks, c2 := SplitToChunks(c1, meshName, payload, rule);
    m := Mesh(idx, meshName, |chunks|, chunks);
    c' := c2;
  }
}

=== FILE: end_to_end.dfy ===
/** A mesh transfer from end to end: `AddRigidBodyMeshMessage` is constructed from a payload, its
    `send` puts the parent and then the chunks on the wire, and the server's `MeshChunksHandler`
    receives those messages in the order they were sent. */
module EndToEnd {
  import opened Wire
  import opened Registry
  import opened Chunker
  import opened Sender
  import opened ChunkOrder
  import opened Reassembly
  import opened Unpacking
  import opened Server

  /** The messages a send log put on the wire, in order. */
  function Sent(log: seq<SendRecord>): (ms: seq<Message>)
    ensures |ms| == |log|
    ensures forall i :: 0 <= i < |log| ==> ms[i] == log[i].sent
  {
    if log == [] then [] else [log[0].sent] + Sent(log[1..])
  }

  /** Chunks that arrive in split order come out of the sort in that order, under either id rule:
      positional ids are already sorted, and equal ids keep arrival order. */
  lemma InOrderArrivalSortsToItself(chunks: seq<Chunk>, rule: ChunkIdRule)
    requires forall i :: 0 <= i < |chunks| ==> chunks[i].chunkId == ChunkIdOf(rule, i)
    ensures SortById(chunks) == chunks
  {
    if rule == AsWritten {
      EqualIdsKeepArrivalOrder(chunks, 0);
    } else {
      AnyArrivalOrderSortsBack(chunks, chunks);
    }
  }

  /** The delivery a mesh is expected to produce: the payload for a deformable-mesh name, the
      mesh message itself otherwise. */
  function Expected(m: Mesh, payload: Bytes): Delivery {
    if StartsWith(m.meshName, UnpickledPrefix) then DeliverUnpickled(payload) else Deliver(AddMesh(m))
  }

  /** A send that raised nothing put the detached parent and then every chunk on the wire. */
  lemma SentByMeshSend(m: Mesh, hasType: bool, replies: seq<Reply>, retryTimes: nat)
    requires |replies| >= (|m.chunks| + 1) * AttemptBudget(retryTimes)
    requires !MeshSend(m, hasType, replies, retryTimes).raised
    ensures Sent(MeshSend(m, hasType, replies, retryTimes).log) == [AddMesh(m.(chunks := []))] + ChunkMessages(m.chunks)
  {
    var r := MeshSend(m, hasType, replies, retryTimes);
    var sent := Sent(r.log);
    var chunkMsgs := ChunkMessages(m.chunks);
    var expected := [AddMesh(m.(chunks := []))] + chunkMsgs;
    assert |r.log| == |m.chunks| + 1;
    forall i | 0 <= i < |sent|
      ensures sent[i] == expected[i]
    {
      if i > 0 {
        assert sent[i] == r.log[i].sent == MeshChunk(m.chunks[i - 1]);
        assert expected[i] == chunkMsgs[i - 1];
      } else {
        assert sent[0] == r.log[0].sent;
      }
    }
    assert sent == expected;
  }

  /** Parent first, then the chunks in split order: the handler delivers the mesh that was cut,
      under either chunk-id rule, and keeps nothing for it. */
  lemma InOrderTransfer(h: Handler, m: Mesh, payload: Bytes, rule: ChunkIdRule)
    requires m.meshName !in h.parents && m.meshName !in h.buffers
    requires payload != [] && m.chunkNum == |m.chunks| && CutInto(m.chunks, payload)
    requires forall i :: 0 <= i < |m.chunks| ==>
      m.chunks[i].meshName == m.meshName && m.chunks[i].chunkId == ChunkIdOf(rule, i)
    ensures Run(h, [AddMesh(m.(chunks := []))] + ChunkMessages(m.chunks)) == (h, [Expected(m, payload)])
  {
    var parent := m.(chunks := []);
    assert ChunkMessages([]) + [AddMesh(parent)] + ChunkMessages(m.chunks) ==
      [AddMesh(parent)] + ChunkMessages(m.chunks);
    Transfer(h, parent, [], m.chunks);
    assert [] + m.chunks == m.chunks;
    InOrderArrivalSortsToItself(m.chunks, rule);
    assert Assemble(parent, m.chunks) == m;
  }

  /** The server answering each sent message in turn, every one arriving intact as one request
      and decoding to that message, with or without a `type` attribute: the middleware's state
      afterwards and its downstream calls in order. */
  function ServeAll(h: Handler, msgs: seq<Message>, hasType: bool): (Handler, seq<Delivery>)
    decreases |msgs|
  {
    if msgs == [] then (h, [])
    else
      var s := Answer(h, Loaded(Msg(msgs[0], hasType)));
      var rest := ServeAll(s.handler, msgs[1..], hasType);
      (rest.0, (if s.delivered.Some? then [s.delivered.value] else []) + rest.1)
  }

  /** Typed messages all pass the server's gate, so the middleware sees exactly what was sent. */
  lemma {:induction false} TypedServeAllRuns(h: Handler, msgs: seq<Message>)
    ensures ServeAll(h, msgs, true) == Run(h, msgs)
    decreases |msgs|
  {
    if msgs != [] {
      var s := Answer(h, Loaded(Msg(msgs[0], true)));
      assert (s.handler, s.delivered) == Step(h, msgs[0]);
      TypedServeAllRuns(s.handler, msgs[1..]);
    }
  }

  /** Messages without a `type` attribute are answered with an error and never reach the
      middleware. */
  lemma {:induction false} UntypedServeAllStops(h: Handler, msgs: seq<Message>)
    ensures ServeAll(h, msgs, false) == (h, [])
    decreases |msgs|
  {
    if msgs != [] {
      var s := Answer(h, Loaded(Msg(msgs[0], false)));
      assert s.handler == h && s.delivered == None;
      UntypedServeAllStops(h, msgs[1..]);
      var rest := ServeAll(h, msgs[1..], false);
      assert rest.1 == [] && [] + rest.1 == rest.1;
    }
  }

  /** The sends whose call ended accepted. */
  predicate AllDelivered(log: seq<SendRecord>) {
    forall i :: 0 <= i < |log| ==> log[i].trace.outcome == Delivered
  }

  /** The requests that reach the server's middleware: the message of each call that ended
      accepted, once, in sending order. The server accepts every typed request that reaches it
      intact (`Server.RequestAcceptedIffTyped`), so with replies that come back intact a call
      that ended otherwise was never handled by the middleware, and an accepted call was handled
      once, at its accepting attempt. */
  function Arrivals(log: seq<SendRecord>): (ms: seq<Message>)
    decreases |log|
  {
    if log == [] then []
    else (if log[0].trace.outcome == Delivered then [log[0].sent] else []) + Arrivals(log[1..])
  }

  /** Every call accepted exactly when everything sent arrives; otherwise fewer messages arrive
      than were sent. */
  lemma {:induction false} ArrivalsCount(log: seq<SendRecord>)
    ensures |Arrivals(log)| <= |log|
    ensures AllDelivered(log) <==> Arrivals(log) == Sent(log)
    ensures !AllDelivered(log) ==> |Arrivals(log)| < |log|
    decreases |log|
  {
    if log != [] {
      ArrivalsCount(log[1..]);
      assert AllDelivered(log) <==> log[0].trace.outcome == Delivered && AllDelivered(log[1..]) by {
        if log[0].trace.outcome == Delivered && AllDelivered(log[1..]) {
          forall i | 1 <= i < |log|
            ensures log[i].trace.outcome == Delivered
          {
            assert log[i] == log[1..][i - 1];
          }
        }
      }
    }
  }

  /** What arrives of a log of chunk sends for one mesh are chunks of that mesh. */
  lemma {:induction false} ArrivedChunksNamed(log: seq<SendRecord>, name: string)
    requires forall i :: 0 <= i < |log| ==> log[i].sent.MeshChunk? && log[i].sent.chunk.meshName == name
    ensures forall k :: 0 <= k < |Arrivals(log)| ==>
      Arrivals(log)[k].MeshChunk? && Arrivals(log)[k].chunk.meshName == name
    decreases |log|
  {
    if log != [] {
      forall i | 0 <= i < |log[1..]|
        ensures log[1..][i].sent.MeshChunk? && log[1..][i].sent.chunk.meshName == name
      {
        assert log[1..][i] == log[i + 1];
      }
      ArrivedChunksNamed(log[1..], name);
    }
  }

  /** A parent that arrives first, followed by fewer of its chunks than it declares, stays
      stored and nothing is delivered. */
  lemma ParentWithMissingChunks(h: Handler, p: Mesh, msgs: seq<Message>)
    requires p.meshName !in h.buffers
    requires forall i :: 0 <= i < |msgs| ==> msgs[i].MeshChunk? && msgs[i].chunk.meshName == p.meshName
    requires |msgs| < p.chunkNum
    ensures Run(h, [AddMesh(p)] + msgs).1 == []
    ensures p.meshName in Run(h, [AddMesh(p)] + msgs).0.parents
    ensures Run(h, [AddMesh(p)] + msgs).0.parents[p.meshName] == p
  {
    var ms := [AddMesh(p)] + msgs;
    StepStoresParent(h, p);
    SilentStep(h, ms);
    assert ms[1..] == msgs;
    IncompleteChunksStall(Step(h, AddMesh(p)).0, p.meshName, msgs);
  }

  /** A log whose accepted first call sent the parent and whose other calls sent its chunks, one
      per declared chunk, with at least one of those calls not accepted (or none declared): the
      parent stays stored and nothing is delivered. */
  lemma IncompleteLogStalls(h: Handler, parent: Mesh, log: seq<SendRecord>)
    requires parent.meshName !in h.buffers
    requires log != [] && log[0].sent == AddMesh(parent) && log[0].trace.outcome == Delivered
    requires forall i :: 1 <= i < |log| ==>
      log[i].sent.MeshChunk? && log[i].sent.chunk.meshName == parent.meshName
    requires |log| == parent.chunkNum + 1
    requires parent.chunkNum == 0 || !AllDelivered(log)
    ensures Run(h, Arrivals(log)).1 == [] && parent.meshName in Run(h, Arrivals(log)).0.parents
    ensures Run(h, Arrivals(log)).0.parents[parent.meshName] == parent
  {
    assert log == [log[0]] + log[1..];
    assert Arrivals(log) == [AddMesh(parent)] + Arrivals(log[1..]);
    if parent.chunkNum == 0 {
      assert Arrivals(log[1..]) == [];
      ZeroChunkParentNeverDelivered(h, parent, []);
    } else {
      assert !AllDelivered(log[1..]) by {
        var i :| 0 <= i < |log| && log[i].trace.outcome != Delivered;
        assert log[1..][i - 1] == log[i];
      }
      ArrivalsCount(log[1..]);
      forall j | 0 <= j < |log[1..]|
        ensures log[1..][j].sent.MeshChunk? && log[1..][j].sent.chunk.meshName == parent.meshName
      {
        assert log[1..][j] == log[j + 1];
      }
      ArrivedChunksNamed(log[1..], parent.meshName);
      ParentWithMissingChunks(h, parent, Arrivals(log[1..]));
    }
  }

  /** A typed mesh send that raised nothing but had a call not accepted, which can only be a
      dropped chunk, or had no chunk to send, leaves its parent stored and delivers nothing. */
  lemma SettledSendStalls(h: Handler, m: Mesh, replies: seq<Reply>)
    requires m.meshName !in h.buffers && m.chunkNum == |m.chunks|
    requires forall i :: 0 <= i < |m.chunks| ==> m.chunks[i].meshName == m.meshName
    requires |replies| >= (|m.chunks| + 1) * AttemptBudget(0)
    requires var r := MeshSend(m, true, replies, 0);
      !r.raised && (m.chunks == [] || !AllDelivered(r.log))
    ensures var r := MeshSend(m, true, replies, 0);
      Run(h, Arrivals(r.log)).1 == [] && m.meshName in Run(h, Arrivals(r.log)).0.parents
      && Run(h, Arrivals(r.log)).0.parents[m.meshName] == m.(chunks := [])
  {
    var r := MeshSend(m, true, replies, 0);
    MeshSendSettled(m, true, replies, 0);
    IncompleteLogStalls(h, m.(chunks := []), r.log);
  }

  /** A typed mesh send whose every call was accepted delivers a non-empty payload exactly once
      and leaves the middleware as it was. */
  lemma AcceptedSendTransfers(h: Handler, m: Mesh, payload: Bytes, rule: ChunkIdRule, replies: seq<Reply>)
    requires m.meshName !in h.parents && m.meshName !in h.buffers
    requires payload != [] && m.chunkNum == |m.chunks| && CutInto(m.chunks, payload)
    requires forall i :: 0 <= i < |m.chunks| ==>
      m.chunks[i].meshName == m.meshName && m.chunks[i].chunkId == ChunkIdOf(rule, i)
    requires |replies| >= (|m.chunks| + 1) * AttemptBudget(0)
    requires AllDelivered(MeshSend(m, true, replies, 0).log)
    ensures Run(h, Arrivals(MeshSend(m, true, replies, 0).log)) == (h, [Expected(m, payload)])
  {
    var r := MeshSend(m, true, replies, 0);
    ArrivalsCount(r.log);
    assert !Raises(r.log[|r.log| - 1].trace.outcome);
    SentByMeshSend(m, true, replies, 0);
    InOrderTransfer(h, m, payload, rule);
  }

  /** Construct a mesh message, send it, and have the server answer what arrives, with a
      middleware holding nothing for its name. When every call of the send is accepted and the
      messages have a `type` attribute, a non-empty payload is delivered exactly once, as the
      constructed message (or its payload), and the middleware is left as it was, whichever
      chunk-id rule is in force. When the send raises nothing but a chunk is dropped, or the
      payload is empty, nothing is delivered and the parent stays stored. Without a `type`
      attribute nothing reaches the middleware. */
  method TransferMesh(h: Handler, c: Counter, meshName: string, payload: Bytes, rule: ChunkIdRule,
                      hasType: bool, replies: seq<Reply>)
    returns (m: Mesh, c': Counter, sent: MeshSendResult, h': Handler, delivered: seq<Delivery>)
    requires meshName !in h.parents && meshName !in h.buffers
    requires |replies| >= (SliceCount(|payload|) + 1) * AttemptBudget(0)
    ensures m.idx == c.next && m.meshName == meshName && CutInto(m.chunks, payload)
    ensures c'.next == c.next + 1 + |m.chunks|
    ensures sent == MeshSend(m, hasType, replies, 0)
    ensures (h', delivered) == ServeAll(h, Arrivals(sent.log), hasType)
    ensures hasType && AllDelivered(sent.log) && payload != [] ==> h' == h && delivered == [Expected(m, payload)]
    ensures hasType && !sent.raised && (payload == [] || exists i :: 0 <= i < |sent.log| && sent.log[i].trace.outcome == Dropped) ==>
      delivered == [] && meshName in h'.parents && h'.parents[meshName] == m.(chunks := [])
    ensures !hasType ==> h' == h && delivered == []
  {
    m, c' := NewMeshMessage(c, meshName, payload, rule);
    sent := MeshSend(m, hasType, replies, 0);
    var parent := m.(chunks := []);
    var arrived := Arrivals(sent.log);
    var served := ServeAll(h, arrived, hasType);
    h', delivered := served.0, served.1;
    if !hasType {
      UntypedServeAllStops(h, arrived);
    } else {
      TypedServeAllRuns(h, arrived);
      if AllDelivered(sent.log) && payload != [] {
        AcceptedSendTransfers(h, m, payload, rule, replies);
      } else if !sent.raised && (payload == [] || !AllDelivered(sent.log)) {
        SettledSendStalls(h, m, replies);
      }
    }
  }
}

=== FILE: message_types.dfy ===
/** The `MessageType` enumeration of mesage.py and the tag each concrete class's `type()`
    method returns. The older module dispatches on these tags; it also compares the unbound
    attribute `self.type` with a tag, which is modelled here as a comparison between two
    Python values of different kinds. */
module MessageTypes {
  import opened Wire

  datatype MessageType =
    | DefaultMsg | AddMeshMsg | AddPrimitiveMsg | SetParticleMsg
    | UpdateMeshPose | UpdatePrimitivePose | UpdateFrame | ResponseType

  /** The enum member's value. */
  function ValueOf(t: MessageType): (n: nat)
    ensures n < 8
  {
    match t
    case DefaultMsg => 0
    case AddMeshMsg => 1
    case AddPrimitiveMsg => 2
    case SetParticleMsg => 3
    case UpdateMeshPose => 4
    case UpdatePrimitivePose => 5
    case UpdateFrame => 6
    case ResponseType => 7
  }

  /** Enum lookup by value, `MessageType(n)`; `None` where Python raises `ValueError`. */
  function FromValue(n: int): Option<MessageType> {
    if n == 0 then Some(DefaultMsg)
    else if n == 1 then Some(AddMeshMsg)
    else if n == 2 then Some(AddPrimitiveMsg)
    else if n == 3 then Some(SetParticleMsg)
    else if n == 4 then Some(UpdateMeshPose)
    else if n == 5 then Some(UpdatePrimitivePose)
    else if n == 6 then Some(UpdateFrame)
    else if n == 7 then Some(ResponseType)
    else None
  }

  /** Lookup by value inverts `ValueOf`, and exactly the values 0..7 name a member; in particular
      the eight values are pairwise distinct. */
  lemma ValueLookupRoundTrip(t: MessageType, n: int)
    ensures FromValue(ValueOf(t)) == Some(t)
    ensures FromValue(n) == Some(t) <==> ValueOf(t) == n
    ensures FromValue(n).Some? <==> 0 <= n < 8
  {
  }

  /** The concrete message classes of mesage.py. */
  datatype LegacyClass =
    | LegacyResponse | LegacyAddMesh | LegacyAddPrimitive | LegacySetParticles
    | LegacyUpdateMeshPose | LegacyUpdatePrimitivePose | LegacyUpdateFrame

  /** What each class's `type()` returns. */
  function TypeOf(c: LegacyClass): MessageType {
    match c
    case LegacyResponse => ResponseType
    case LegacyAddMesh => AddMeshMsg
    case LegacyAddPrimitive => AddPrimitiveMsg
    case LegacySetParticles => SetParticleMsg
    case LegacyUpdateMeshPose => UpdateMeshPose
    case LegacyUpdatePrimitivePose => UpdatePrimitivePose
    case LegacyUpdateFrame => UpdateFrame
  }

  /** Every class has its own tag, and no concrete class reports the base class's default. */
  lemma TagsDistinct(c: LegacyClass, d: LegacyClass)
    ensures TypeOf(c) == TypeOf(d) <==> c == d
    ensures TypeOf(c) != DefaultMsg
  {
  }

  /** A Python value as the `==` at mesage.py:103 sees it: the attribute `self.type`, read without
      a call, is a bound method; `MessageType.ADD_MESH_MSG` is an enum member. */
  datatype PyValue = BoundMethod(owner: LegacyClass) | EnumMember(member: MessageType)

  /** `self.type` without a call: every class defines `type` as a plain method. */
  function TypeAttribute(c: LegacyClass): PyValue {
    BoundMethod(c)
  }

  /** The critical test of mesage.py:103 as written. A bound method never equals an enum member,
      so the test is false for every class. */
  function LegacyCriticalTest(c: LegacyClass): (critical: bool)
    ensures !critical
  {
    TypeAttribute(c) == EnumMember(AddMeshMsg) || TypeAttribute(c) == EnumMember(AddPrimitiveMsg)
  }

  /** The test the doc-comment of `send` describes: the message adds something to the renderer. */
  function IntendedCriticalTest(c: LegacyClass): (critical: bool)
    ensures critical <==> c == LegacyAddMesh || c == LegacyAddPrimitive
  {
    TypeOf(c) == AddMeshMsg || TypeOf(c) == AddPrimitiveMsg
  }
}

=== FILE: reassembly.dfy ===
/** `MeshChunksHandler` of server_util.py: a middleware that holds back mesh messages and their
    chunks, keyed by mesh name, and hands the completed mesh to the next handler. Every other
    message goes straight through. */
module Reassembly {
  import opened Wire
  import opened ChunkOrder
  import opened Chunker

  /** The two dictionaries `mesh_name_2_msg` and `mesh_name_2_chunks`. */
  datatype Handler = Handler(parents: map<string, Mesh>, buffers: map<string, seq<Chunk>>)

  const Empty := Handler(map[], map[])

  /** Names with this prefix carry a pickled deformable-mesh message as their payload. */
  const UnpickledPrefix := "MPM::MESHES::"

  /** What the next handler is called with: a message, or the value `pickle.loads` makes of a
      reassembled payload (foreign code, so the payload stands for that value). */
  datatype Delivery = Deliver(msg: Message) | DeliverUnpickled(payload: Bytes)

  /** The chunks buffered for `name`; an absent entry reads as none. */
  function Buffered(h: Handler, name: string): seq<Chunk> {
    if name in h.buffers then h.buffers[name] else []
  }

  /** The completed parent: the sorted chunks are appended to its own `chunks` list. */
  function Assemble(p: Mesh, sorted: seq<Chunk>): Mesh {
    p.(chunks := p.chunks + sorted)
  }

  /** The delivery made for a completed mesh. */
  function Completed(p: Mesh, sorted: seq<Chunk>): Delivery {
    if StartsWith(p.meshName, UnpickledPrefix) then DeliverUnpickled(MeshFile(Assemble(p, sorted).chunks))
    else Deliver(AddMesh(Assemble(p, sorted)))
  }

  /** The completion test, made only when a chunk arrives: its parent is known and the buffer,
      with this chunk appended, holds the declared number of chunks. */
  predicate Completes(h: Handler, c: Chunk) {
    c.meshName in h.parents && |Buffered(h, c.meshName)| + 1 == h.parents[c.meshName].chunkNum
  }

  /** `MeshChunksHandler.__call__`: the handler state afterwards and the call made downstream.
      A call downstream is made exactly for a message that is neither a mesh nor a chunk, and for
      a chunk that completes its mesh; a completed mesh leaves no entry behind. */
  function Step(h: Handler, msg: Message): (r: (Handler, Option<Delivery>))
    ensures r.1.Some? <==> !msg.AddMesh? && (msg.MeshChunk? ==> Completes(h, msg.chunk))
    ensures !msg.AddMesh? && !msg.MeshChunk? ==> r.0 == h && r.1 == Some(Deliver(msg))
    ensures msg.AddMesh? ==> r.0.buffers == h.buffers && msg.mesh.meshName in r.0.parents
    ensures msg.MeshChunk? && Completes(h, msg.chunk) ==>
      msg.chunk.meshName !in r.0.parents && msg.chunk.meshName !in r.0.buffers
    ensures msg.MeshChunk? && !Completes(h, msg.chunk) ==> r.0.parents == h.parents
  {
    match msg
    case AddMesh(p) =>
      (h.(parents := h.parents[p.meshName := p]), None)
    case MeshChunk(c) =>
      var name := c.meshName;
      var buffer := Buffered(h, name) + [c];
      if name in h.parents && |buffer| == h.parents[name].chunkNum then
        var sorted := SortById(buffer);
        (Handler(h.parents - {name}, h.buffers - {name}), Some(Completed(h.parents[name], sorted)))
      else
        (h.(buffers := h.buffers[name := buffer]), None)
    case _ =>
      (h, Some(Deliver(msg)))
  }

  /** A mesh message is stored under its name, replacing any earlier one, and is not passed on. */
  lemma StepStoresParent(h: Handler, p: Mesh)
    ensures Step(h, AddMesh(p)) == (Handler(h.parents[p.meshName := p], h.buffers), None)
  {
  }

  /** A chunk that does not complete its mesh is appended to its name's buffer, which is
      created if absent. */
  lemma StepBuffersChunk(h: Handler, c: Chunk)
    requires !Completes(h, c)
    ensures Step(h, MeshChunk(c)) == (Handler(h.parents, h.buffers[c.meshName := Buffered(h, c.meshName) + [c]]), None)
  {
  }

  /** A chunk that completes its mesh removes both entries for the name and delivers the
      parent with the buffer, this chunk included, sorted by `chunk_id`. */
  lemma StepCompletes(h: Handler, c: Chunk)
    requires Completes(h, c)
    ensures Step(h, MeshChunk(c)) == (Handler(h.parents - {c.meshName}, h.buffers - {c.meshName}),
      Some(Completed(h.parents[c.meshName], SortById(Buffered(h, c.meshName) + [c]))))
  {
  }

  /** The handler fed a sequence of messages: the final state and the downstream calls in order. */
  function Run(h: Handler, msgs: seq<Message>): (r: (Handler, seq<Delivery>))
    ensures |r.1| <= |msgs|
    decreases |msgs|
  {
    if msgs == [] then (h, [])
    else
      var (h1, d) := Step(h, msgs[0]);
      var (h2, ds) := Run(h1, msgs[1..]);
      ((h2, (if d.Some? then [d.value] else []) + ds))
  }

  lemma {:induction false} RunAppend(h: Handler, a: seq<Message>, b: seq<Message>)
    ensures Run(h, a + b).0 == Run(Run(h, a).0, b).0
    ensures Run(h, a + b).1 == Run(h, a).1 + Run(Run(h, a).0, b).1
    decreases |a|
  {
    if a == [] {
      assert a + b == b;
    } else {
      assert (a + b)[0] == a[0] && (a + b)[1..] == a[1..] + b;
      RunAppend(Step(h, a[0]).0, a[1..], b);
    }
  }

  /** The chunks as they arrive at the handler, one message each. */
  function ChunkMessages(cs: seq<Chunk>): (ms: seq<Message>)
    ensures |ms| == |cs|
    ensures forall i :: 0 <= i < |cs| ==> ms[i] == MeshChunk(cs[i])
  {
    if cs == [] then [] else [MeshChunk(cs[0])] + ChunkMessages(cs[1..])
  }

  predicate AllNamed(cs: seq<Chunk>, name: string) {
    forall i :: 0 <= i < |cs| ==> cs[i].meshName == name
  }

  /** Chunks that arrive before their parent are only buffered, in arrival order, under their
      name; nothing is passed on and nothing else changes. */
  lemma {:induction false} ChunksWithoutParentBuffer(h: Handler, name: string, cs: seq<Chunk>)
    requires name !in h.parents && AllNamed(cs, name)
    ensures Run(h, ChunkMessages(cs)) ==
      (if cs == [] then h else Handler(h.parents, h.buffers[name := Buffered(h, name) + cs]), [])
    decreases |cs|
  {
    var ms := ChunkMessages(cs);
    if cs != [] {
      var c := cs[0];
      assert ms[0] == MeshChunk(c) && ms[1..] == ChunkMessages(cs[1..]);
      StepBuffersChunk(h, c);
      var h1 := Handler(h.parents, h.buffers[name := Buffered(h, name) + [c]]);
      assert Step(h, ms[0]) == (h1, None);
      assert Buffered(h1, name) == Buffered(h, name) + [c];
      ChunksWithoutParentBuffer(h1, name, cs[1..]);
      ConsAssoc(Buffered(h, name), cs);
      var rest := Run(h1, ms[1..]);
      if |cs| == 1 {
        assert cs == [c];
        assert rest == (h1, []);
      } else {
        UpdateTwice(h.buffers, name, Buffered(h, name) + [c], Buffered(h, name) + cs);
        assert rest == (Handler(h.parents, h.buffers[name := Buffered(h, name) + cs]), []);
      }
      assert [] + rest.1 == rest.1;
      assert Run(h, ms) == rest;
    }
  }

  lemma UpdateTwice<V>(m: map<string, V>, k: string, v: V, w: V)
    ensures m[k := v][k := w] == m[k := w]
  {
  }

  lemma UpdateFreshThenRemove<V>(m: map<string, V>, k: string, v: V)
    requires k !in m
    ensures m[k := v] - {k} == m
  {
  }

  lemma ConsAssoc(b: seq<Chunk>, cs: seq<Chunk>)
    requires cs != []
    ensures (b + [cs[0]]) + cs[1..] == b + cs
  {
    assert cs == [cs[0]] + cs[1..];
  }

  lemma UpdateThenRemove<V>(m: map<string, V>, k: string, v: V)
    ensures m[k := v] - {k} == m - {k}
  {
  }

  /** Once the parent is known, the chunk that brings the buffer to `chunk_num` completes the
      transfer: nothing is delivered before it, exactly one delivery is made with the buffer
      sorted by `chunk_id`, and both entries for the name are removed. */
  lemma {:induction false} ChunksCompleteTransfer(h: Handler, name: string, cs: seq<Chunk>)
    requires name in h.parents && AllNamed(cs, name)
    requires |Buffered(h, name)| < h.parents[name].chunkNum == |Buffered(h, name)| + |cs|
    ensures Run(h, ChunkMessages(cs)).1 == [Completed(h.parents[name], SortById(Buffered(h, name) + cs))]
    ensures Run(h, ChunkMessages(cs)).0 == Handler(h.parents - {name}, h.buffers - {name})
    decreases |cs|
  {
    var c := cs[0];
    assert c.meshName == name;
    var ms := ChunkMessages(cs);
    assert ms[0] == MeshChunk(c) && ms[1..] == ChunkMessages(cs[1..]);
    if |cs| == 1 {
      assert cs == [c];
      LastChunkCompletes(h, c);
    } else {
      var h1 := Step(h, MeshChunk(c)).0;
      BufferOne(h, c);
      assert AllNamed(cs[1..], name);
      ChunksCompleteTransfer(h1, name, cs[1..]);
      ConsAssoc(Buffered(h, name), cs);
      SilentStep(h, ms);
    }
  }

  /** Chunks of a stored parent that fall short of its `chunk_num` only buffer: nothing is
      delivered and the parent stays stored. */
  lemma {:induction false} IncompleteChunksStall(h: Handler, name: string, msgs: seq<Message>)
    requires name in h.parents
    requires forall i :: 0 <= i < |msgs| ==> msgs[i].MeshChunk? && msgs[i].chunk.meshName == name
    requires |Buffered(h, name)| + |msgs| < h.parents[name].chunkNum
    ensures Run(h, msgs).1 == []
    ensures Run(h, msgs).0.parents == h.parents
    ensures |Buffered(Run(h, msgs).0, name)| == |Buffered(h, name)| + |msgs|
    decreases |msgs|
  {
    if msgs != [] {
      var c := msgs[0].chunk;
      BufferOne(h, c);
      SilentStep(h, msgs);
      var h1 := Step(h, msgs[0]).0;
      forall i | 0 <= i < |msgs[1..]|
        ensures msgs[1..][i].MeshChunk? && msgs[1..][i].chunk.meshName == name
      {
        assert msgs[1..][i] == msgs[i + 1];
      }
      IncompleteChunksStall(h1, name, msgs[1..]);
    }
  }

  /** A first message that makes no delivery leaves the run to the rest. */
  lemma SilentStep(h: Handler, ms: seq<Message>)
    requires ms != [] && Step(h, ms[0]).1 == None
    ensures Run(h, ms) == Run(Step(h, ms[0]).0, ms[1..])
  {
    var rest := Run(Step(h, ms[0]).0, ms[1..]);
    assert [] + rest.1 == rest.1;
  }

  /** A chunk that does not complete its mesh changes only its own buffer. */
  lemma BufferOne(h: Handler, c: Chunk)
    requires !Completes(h, c)
    ensures Step(h, MeshChunk(c)).1 == None
    ensures Step(h, MeshChunk(c)).0.parents == h.parents
    ensures Buffered(Step(h, MeshChunk(c)).0, c.meshName) == Buffered(h, c.meshName) + [c]
    ensures Step(h, MeshChunk(c)).0.buffers - {c.meshName} == h.buffers - {c.meshName}
  {
    StepBuffersChunk(h, c);
    UpdateThenRemove(h.buffers, c.meshName, Buffered(h, c.meshName) + [c]);
  }

  /** The last chunk of a transfer, alone, completes it. */
  lemma LastChunkCompletes(h: Handler, c: Chunk)
    requires Completes(h, c)
    ensures Run(h, ChunkMessages([c])).1 == [Completed(h.parents[c.meshName], SortById(Buffered(h, c.meshName) + [c]))]
    ensures Run(h, ChunkMessages([c])).0 == Handler(h.parents - {c.meshName}, h.buffers - {c.meshName})
  {
    var ms := ChunkMessages([c]);
    assert ms == [MeshChunk(c)] && ms[1..] == [];
    StepCompletes(h, c);
    var d := Completed(h.parents[c.meshName], SortById(Buffered(h, c.meshName) + [c]));
    var h1 := Handler(h.parents - {c.meshName}, h.buffers - {c.meshName});
    assert Step(h, ms[0]) == (h1, Some(d));
    assert Run(h1, ms[1..]) == (h1, []);
    assert Run(h, ms) == (h1, [d] + []);
  }

  /** A message that is not a mesh message for `name`. */
  predicate NotParentOf(m: Message, name: string) {
    !(m.AddMesh? && m.mesh.meshName == name)
  }

  /** Every stored parent is stored under its own name, as `__call__` stores them; the empty
      handler and every state reached from one have this shape. */
  predicate KeysMatch(h: Handler) {
    forall k :: k in h.parents ==> h.parents[k].meshName == k
  }

  /** The empty handler has this shape. */
  lemma EmptyKeysMatch()
    ensures KeysMatch(Empty)
  {
  }

  /** Every run keeps this shape. */
  lemma {:induction false} RunKeepsKeys(h: Handler, msgs: seq<Message>)
    requires KeysMatch(h)
    ensures KeysMatch(Run(h, msgs).0)
    decreases |msgs|
  {
    if msgs != [] {
      StepKeepsKeys(h, msgs[0]);
      RunKeepsKeys(Step(h, msgs[0]).0, msgs[1..]);
    }
  }

  /** Every state the handler reaches from the empty one stores each parent under its name. */
  lemma ReachableKeysMatch(msgs: seq<Message>)
    ensures KeysMatch(Run(Empty, msgs).0)
  {
    EmptyKeysMatch();
    RunKeepsKeys(Empty, msgs);
  }

  /** The delivery is a mesh message named `name`. */
  predicate MeshDelivery(d: Delivery, name: string) {
    d.Deliver? && d.msg.AddMesh? && d.msg.mesh.meshName == name
  }

  lemma StepKeepsKeys(h: Handler, m: Message)
    requires KeysMatch(h)
    ensures KeysMatch(Step(h, m).0)
  {
    var h1 := Step(h, m).0;
    forall k | k in h1.parents
      ensures h1.parents[k].meshName == k
    {
      if m.AddMesh? && k == m.mesh.meshName {
      } else {
        assert k in h.parents && h1.parents[k] == h.parents[k];
      }
    }
  }

  /** While `name`'s buffer is overfull, one step delivers no mesh message named `name`. */
  lemma StepSkipsOverfull(h: Handler, name: string, m: Message)
    requires KeysMatch(h) && name in h.parents && |Buffered(h, name)| >= h.parents[name].chunkNum
    ensures Step(h, m).1.Some? ==> !MeshDelivery(Step(h, m).1.value, name)
  {
    if m.MeshChunk? && Completes(h, m.chunk) {
      assert m.chunk.meshName != name;
      assert h.parents[m.chunk.meshName].meshName == m.chunk.meshName;
    }
  }

  /** A parent whose buffer already holds `chunk_num` chunks or more stalls as long as no new
      mesh message of that name arrives: its entry stays as it is, and, from a handler that
      stores each parent under its own name, no mesh message of that name is passed on. */
  lemma {:induction false} OverfullParentStalls(h: Handler, name: string, msgs: seq<Message>)
    requires name in h.parents && |Buffered(h, name)| >= h.parents[name].chunkNum
    requires forall i :: 0 <= i < |msgs| ==> NotParentOf(msgs[i], name)
    ensures name in Run(h, msgs).0.parents
    ensures Run(h, msgs).0.parents[name] == h.parents[name]
    ensures |Buffered(Run(h, msgs).0, name)| >= |Buffered(h, name)|
    ensures KeysMatch(h) ==>
      forall i :: 0 <= i < |Run(h, msgs).1| ==> !MeshDelivery(Run(h, msgs).1[i], name)
    decreases |msgs|
  {
    if msgs != [] {
      var h1 := Step(h, msgs[0]).0;
      assert name in h1.parents && h1.parents[name] == h.parents[name];
      assert |Buffered(h1, name)| >= |Buffered(h, name)|;
      OverfullParentStalls(h1, name, msgs[1..]);
      if KeysMatch(h) {
        StepKeepsKeys(h, msgs[0]);
        StepSkipsOverfull(h, name, msgs[0]);
        NoMeshDeliveryCons(Step(h, msgs[0]).1, Run(h1, msgs[1..]).1, name);
      }
    }
  }

  lemma NoMeshDeliveryCons(d: Option<Delivery>, rest: seq<Delivery>, name: string)
    requires d.Some? ==> !MeshDelivery(d.value, name)
    requires forall i :: 0 <= i < |rest| ==> !MeshDelivery(rest[i], name)
    ensures var ds := (if d.Some? then [d.value] else []) + rest;
      forall i :: 0 <= i < |ds| ==> !MeshDelivery(ds[i], name)
  {
    var head := if d.Some? then [d.value] else [];
    forall i | 0 <= i < |head + rest|
      ensures !MeshDelivery((head + rest)[i], name)
    {
      if i >= |head| {
        assert (head + rest)[i] == rest[i - |head|];
      }
    }
  }

  /** A parent stored from a handler in the shape `KeysMatch` describes keeps that shape, and
      storing it delivers nothing. */
  lemma StoreParent(h: Handler, p: Mesh, msgs: seq<Message>)
    requires KeysMatch(h)
    ensures KeysMatch(Step(h, AddMesh(p)).0)
    ensures Run(h, [AddMesh(p)] + msgs).1 == Run(Step(h, AddMesh(p)).0, msgs).1
  {
    StepKeepsKeys(h, AddMesh(p));
    RunAppend(h, [AddMesh(p)], msgs);
    assert [AddMesh(p)][1..] == [];
  }

  /** A parent declaring no chunks is stored and stays stored as long as no new mesh message of
      that name arrives; from a handler that stores each parent under its own name, no mesh
      message of that name is passed on meanwhile. */
  lemma ZeroChunkParentNeverDelivered(h: Handler, p: Mesh, msgs: seq<Message>)
    requires p.chunkNum == 0
    requires forall i :: 0 <= i < |msgs| ==> NotParentOf(msgs[i], p.meshName)
    ensures p.meshName in Run(h, [AddMesh(p)] + msgs).0.parents
    ensures Run(h, [AddMesh(p)] + msgs).0.parents[p.meshName] == p
    ensures KeysMatch(h) ==> forall i :: 0 <= i < |Run(h, [AddMesh(p)] + msgs).1| ==>
      !MeshDelivery(Run(h, [AddMesh(p)] + msgs).1[i], p.meshName)
  {
    RunAppend(h, [AddMesh(p)], msgs);
    OverfullParentStalls(Step(h, AddMesh(p)).0, p.meshName, msgs);
    if KeysMatch(h) {
      StoreParent(h, p, msgs);
    }
  }

  /** A parent that arrives after all of its chunks stalls, since completion is only checked
      when a chunk arrives: it stays stored as long as no new mesh message of that name arrives,
      and, from a handler that stores each parent under its own name, no mesh message of that
      name is passed on meanwhile. */
  lemma LateParentNeverDelivered(h: Handler, p: Mesh, msgs: seq<Message>)
    requires |Buffered(h, p.meshName)| >= p.chunkNum
    requires forall i :: 0 <= i < |msgs| ==> NotParentOf(msgs[i], p.meshName)
    ensures p.meshName in Run(h, [AddMesh(p)] + msgs).0.parents
    ensures Run(h, [AddMesh(p)] + msgs).0.parents[p.meshName] == p
    ensures KeysMatch(h) ==> forall i :: 0 <= i < |Run(h, [AddMesh(p)] + msgs).1| ==>
      !MeshDelivery(Run(h, [AddMesh(p)] + msgs).1[i], p.meshName)
  {
    RunAppend(h, [AddMesh(p)], msgs);
    OverfullParentStalls(Step(h, AddMesh(p)).0, p.meshName, msgs);
    if KeysMatch(h) {
      StoreParent(h, p, msgs);
    }
  }

  /** Chunks that arrive ahead of their parent stay buffered when it arrives; the parent is
      stored and nothing is delivered. */
  lemma ParentAfterChunks(h: Handler, p: Mesh, before: seq<Chunk>)
    requires p.meshName !in h.parents && p.meshName !in h.buffers && AllNamed(before, p.meshName)
    ensures Run(h, ChunkMessages(before) + [AddMesh(p)]) ==
      (Handler(h.parents[p.meshName := p], if before == [] then h.buffers else h.buffers[p.meshName := before]), [])
  {
    var name := p.meshName;
    var h1 := if before == [] then h else Handler(h.parents, h.buffers[name := before]);
    assert Run(h, ChunkMessages(before)) == (h1, []) by {
      ChunksWithoutParentBuffer(h, name, before);
      assert Buffered(h, name) + before == before;
    }
    var h2 := Handler(h1.parents[name := p], h1.buffers);
    assert Run(h1, [AddMesh(p)]) == (h2, []) by {
      StepStoresParent(h1, p);
      assert [AddMesh(p)][1..] == [];
    }
    RunAppend(h, ChunkMessages(before), [AddMesh(p)]);
  }

  /** A transfer: chunks may arrive before and after the parent, the parent is sent with its
      chunks detached, and at least one chunk arrives after it. From a handler holding nothing
      for the name, exactly one delivery is made, the parent with the arrived chunks sorted by
      `chunk_id`, and the handler is left as it was. */
  lemma Transfer(h: Handler, p: Mesh, before: seq<Chunk>, after: seq<Chunk>)
    requires p.meshName !in h.parents && p.meshName !in h.buffers
    requires AllNamed(before, p.meshName) && AllNamed(after, p.meshName)
    requires after != [] && p.chunkNum == |before| + |after|
    ensures Run(h, ChunkMessages(before) + [AddMesh(p)] + ChunkMessages(after)) ==
      (h, [Completed(p, SortById(before + after))])
  {
    var name := p.meshName;
    var first := ChunkMessages(before) + [AddMesh(p)];
    ParentAfterChunks(h, p, before);
    var buffers := if before == [] then h.buffers else h.buffers[name := before];
    var h2 := Handler(h.parents[name := p], buffers);
    assert Buffered(h2, name) == before;
    ChunksCompleteTransfer(h2, name, after);
    assert h2.parents[name] == p;
    var fin := Handler(h2.parents - {name}, h2.buffers - {name});
    var d := Completed(p, SortById(before + after));
    assert Run(h2, ChunkMessages(after)) == (fin, [d]);
    RunAppend(h, first, ChunkMessages(after));
    assert [] + [d] == [d];
    RestoredAfterTransfer(h, p, before);
    assert fin == h;
  }

  lemma RestoredAfterTransfer(h: Handler, p: Mesh, before: seq<Chunk>)
    requires p.meshName !in h.parents && p.meshName !in h.buffers
    ensures h.parents[p.meshName := p] - {p.meshName} == h.parents
    ensures (if before == [] then h.buffers else h.buffers[p.meshName := before]) - {p.meshName} == h.buffers
  {
    UpdateFreshThenRemove(h.parents, p.meshName, p);
    if before != [] {
      UpdateFreshThenRemove(h.buffers, p.meshName, before);
    }
  }

  /** With chunk ids that follow split order, the transfer delivers exactly the mesh message
      that was constructed, whatever order its chunks arrive in; for a deformable-mesh name the
      payload handed to the unpickler is the original one. */
  lemma PositionalIdsRestoreAnyOrder(h: Handler, m: Mesh, payload: Bytes, before: seq<Chunk>, after: seq<Chunk>)
    requires m.meshName !in h.parents && m.meshName !in h.buffers
    requires m.chunkNum == |m.chunks| && CutInto(m.chunks, payload)
    requires forall i :: 0 <= i < |m.chunks| ==>
      m.chunks[i].meshName == m.meshName && m.chunks[i].chunkId == ChunkIdOf(Positional, i)
    requires after != [] && multiset(before + after) == multiset(m.chunks)
    ensures Run(h, ChunkMessages(before) + [AddMesh(m.(chunks := []))] + ChunkMessages(after)).1
      == [if StartsWith(m.meshName, UnpickledPrefix) then DeliverUnpickled(payload) else Deliver(AddMesh(m))]
  {
    var parent := m.(chunks := []);
    AllNamedSplit(before, after, m.chunks, m.meshName);
    Transfer(h, parent, before, after);
    assert SortById(before + after) == m.chunks by {
      AnyArrivalOrderSortsBack(m.chunks, before + after);
    }
    assert Assemble(parent, m.chunks) == m;
  }

  /** Chunks that are a rearrangement of chunks named `name`, split in two, are named `name` on
      both sides. */
  lemma AllNamedSplit(before: seq<Chunk>, after: seq<Chunk>, chunks: seq<Chunk>, name: string)
    requires forall i :: 0 <= i < |chunks| ==> chunks[i].meshName == name
    requires multiset(before + after) == multiset(chunks)
    ensures AllNamed(before, name) && AllNamed(after, name)
    ensures |before| + |after| == |chunks|
  {
    var arrived := before + after;
    assert |arrived| == |multiset(arrived)| == |chunks|;
    forall i | 0 <= i < |arrived|
      ensures arrived[i].meshName == name
    {
      assert arrived[i] in multiset(chunks);
    }
    assert AllNamed(before, name) by {
      forall i | 0 <= i < |before| ensures before[i].meshName == name {
        assert before[i] == arrived[i];
      }
    }
    assert AllNamed(after, name) by {
      forall i | 0 <= i < |after| ensures after[i].meshName == name {
        assert after[i] == arrived[|before| + i];
      }
    }
  }

  /** With every `chunk_id` equal to 0, as message.py assigns them, the sort keeps arrival order:
      a two-chunk mesh whose chunks arrive in reverse is delivered with a payload that is not the
      original one as soon as its first byte differs from byte `CHUNK_SIZE`. */
  lemma AsWrittenReversedArrivalCorrupts(h: Handler, m: Mesh, payload: Bytes)
    requires m.meshName !in h.parents && m.meshName !in h.buffers
    requires m.chunkNum == |m.chunks| == 2 && CutInto(m.chunks, payload)
    requires forall i :: 0 <= i < |m.chunks| ==>
      m.chunks[i].meshName == m.meshName && m.chunks[i].chunkId == ChunkIdOf(AsWritten, i)
    requires payload[0] != payload[ChunkSize]
    ensures var ds := Run(h, [AddMesh(m.(chunks := []))] + ChunkMessages([m.chunks[1], m.chunks[0]])).1;
      |ds| == 1 && ds[0] == Completed(m.(chunks := []), [m.chunks[1], m.chunks[0]])
      && MeshFile(Assemble(m.(chunks := []), [m.chunks[1], m.chunks[0]]).chunks) != payload
  {
    var parent := m.(chunks := []);
    var reversed := [m.chunks[1], m.chunks[0]];
    assert Run(h, [AddMesh(parent)] + ChunkMessages(reversed)).1 == [Completed(parent, reversed)] by {
      assert ChunkMessages([]) + [AddMesh(parent)] + ChunkMessages(reversed)
        == [AddMesh(parent)] + ChunkMessages(reversed);
      Transfer(h, parent, [], reversed);
      assert [] + reversed == reversed;
      EqualIdsKeepArrivalOrder(reversed, 0);
    }
    assert MeshFile(reversed) != payload by {
      ReversedFile(m.chunks[0], m.chunks[1]);
      assert m.chunks[1].data == SliceAt(payload, 1);
    }
  }

  lemma ReversedFile(c0: Chunk, c1: Chunk)
    ensures MeshFile([c1, c0]) == c1.data + c0.data
  {
    MeshFileAppend([], c1);
    assert [] + [c1] == [c1];
    MeshFileAppend([c1], c0);
    assert [c1] + [c0] == [c1, c0];
  }
}

=== FILE: registry.dfy ===
/** The message-id counter `BaseMessage._message_cnt` and the constructors that consume it.
    In message.py the increment is written to the class; in mesage.py it is written through
    `self`, which creates an instance attribute and leaves the class counter untouched. */
module Registry {
  import opened Wire

  /** The class attribute `BaseMessage._message_cnt`. */
  datatype Counter = Counter(next: int)

  /** The counter's value when the module is loaded. */
  const Initial := Counter(1)

  /** `set_idx_and_increment_cnt`: the id read from the counter, and the class counter afterwards. */
  function Assign(v: Version, c: Counter): (r: (int, Counter))
    ensures r.0 == c.next
    ensures v == Current ==> r.1.next == r.0 + 1
    ensures v == Legacy ==> r.1 == c
  {
    match v
    case Current => (c.next, Counter(c.next + 1))
    case Legacy => (c.next, c)
  }

  /** The ids handed to `n` consecutive constructions, and the counter afterwards. */
  function Issue(v: Version, c: Counter, n: nat): (r: (seq<int>, Counter))
    ensures |r.0| == n
    decreases n
  {
    if n == 0 then ([], c)
    else
      var (i, c1) := Assign(v, c);
      var (rest, c2) := Issue(v, c1, n - 1);
      ([i] + rest, c2)
  }

  /** message.py: n constructions receive the n consecutive values starting at the counter. */
  lemma {:induction false} CurrentIdsConsecutive(c: Counter, n: nat)
    ensures |Issue(Current, c, n).0| == n
    ensures forall k :: 0 <= k < n ==> Issue(Current, c, n).0[k] == c.next + k
    ensures Issue(Current, c, n).1.next == c.next + n
    decreases n
  {
    if n > 0 {
      CurrentIdsConsecutive(Counter(c.next + 1), n - 1);
    }
  }

  /** message.py: assigned ids are strictly increasing, hence never reused. */
  lemma CurrentIdsStrictlyIncreasing(c: Counter, n: nat)
    ensures forall i, j :: 0 <= i < j < n ==> Issue(Current, c, n).0[i] < Issue(Current, c, n).0[j]
  {
    CurrentIdsConsecutive(c, n);
  }

  /** message.py: from a freshly loaded module, n constructions receive exactly the ids 1..n. */
  lemma CurrentIdsFromOne(n: nat)
    ensures forall k :: k in Issue(Current, Initial, n).0 <==> 1 <= k <= n
  {
    CurrentIdsConsecutive(Initial, n);
    var ids := Issue(Current, Initial, n).0;
    forall k | 1 <= k <= n
      ensures k in ids
    {
      assert ids[k - 1] == k;
    }
  }

  /** mesage.py: the class counter never moves, so every construction receives its value. */
  lemma {:induction false} LegacyIdsConstant(c: Counter, n: nat)
    ensures |Issue(Legacy, c, n).0| == n
    ensures forall k :: 0 <= k < n ==> Issue(Legacy, c, n).0[k] == c.next
    ensures Issue(Legacy, c, n).1 == c
    decreases n
  {
    if n > 0 {
      LegacyIdsConstant(c, n - 1);
    }
  }

  /** mesage.py: every message built after loading the module has `message_idx == 1`, so any
      two of them share an id. */
  lemma LegacyIdsCollide(n: nat)
    requires n >= 2
    ensures forall k :: 0 <= k < n ==> Issue(Legacy, Initial, n).0[k] == 1
    ensures Issue(Legacy, Initial, n).0[0] == Issue(Legacy, Initial, n).0[1]
  {
    LegacyIdsConstant(Initial, n);
  }

  /** The arguments of one message constructor of message.py. The mesh message is built by
      `Chunker.NewMeshMessage`, since it also constructs its chunks. */
  datatype Construction =
    | NewResponse(requestIdx: int, errMsg: string)
    | NewPrimitive(primitiveName: string, typeName: string)
    | NewParticles(objName: string, frameIdx: int)
    | NewPose(poseName: string, frameIdx: int)

  /** Runs one constructor. Every constructor but `ResponseMessage.__init__` calls
      `BaseMessage.__init__` and so consumes a counter value; a response takes the id it is given. */
  function Construct(v: Version, c: Counter, k: Construction): (r: (Message, Counter))
    ensures k.NewResponse? ==> r.1 == c && r.0.Response? && r.0.Idx() == k.requestIdx && r.0.err == k.errMsg
    ensures !k.NewResponse? ==> r.0.Idx() == c.next && r.1 == Assign(v, c).1
  {
    match k
    case NewResponse(i, e) => (Response(i, e), c)
    case NewPrimitive(n, t) =>
      var (i, c1) := Assign(v, c); (AddPrimitive(i, n, t), c1)
    case NewParticles(n, f) =>
      var (i, c1) := Assign(v, c); (SetParticles(i, n, f), c1)
    case NewPose(n, f) =>
      var (i, c1) := Assign(v, c); (UpdatePose(i, n, f), c1)
  }

  /** Runs the constructors in order, threading the counter. */
  function ConstructAll(v: Version, c: Counter, ks: seq<Construction>): (r: (seq<Message>, Counter))
    ensures |r.0| == |ks|
    decreases |ks|
  {
    if ks == [] then ([], c)
    else
      var (m, c1) := Construct(v, c, ks[0]);
      var (ms, c2) := ConstructAll(v, c1, ks[1..]);
      ([m] + ms, c2)
  }

  function CountCounted(ks: seq<Construction>): nat {
    if ks == [] then 0 else (if ks[0].NewResponse? then 0 else 1) + CountCounted(ks[1..])
  }

  /** message.py: however responses are interleaved, the other messages receive ids at or above
      the starting counter, strictly increasing in construction order; the counter advances once
      per non-response construction. */
  lemma {:induction false} CurrentIdsIncreaseAcrossConstructions(c: Counter, ks: seq<Construction>)
    ensures |ConstructAll(Current, c, ks).0| == |ks|
    ensures ConstructAll(Current, c, ks).1.next == c.next + CountCounted(ks)
    ensures forall i :: 0 <= i < |ks| && !ks[i].NewResponse? ==>
      c.next <= ConstructAll(Current, c, ks).0[i].Idx() < c.next + CountCounted(ks)
    ensures forall i, j :: 0 <= i < j < |ks| && !ks[i].NewResponse? && !ks[j].NewResponse? ==>
      ConstructAll(Current, c, ks).0[i].Idx() < ConstructAll(Current, c, ks).0[j].Idx()
    decreases |ks|
  {
    if ks != [] {
      var (m, c1) := Construct(Current, c, ks[0]);
      CurrentIdsIncreaseAcrossConstructions(c1, ks[1..]);
      var ms := ConstructAll(Current, c, ks).0;
      assert ms == [m] + ConstructAll(Current, c1, ks[1..]).0;
      forall i | 1 <= i < |ks| && !ks[i].NewResponse?
        ensures c1.next <= ms[i].Idx()
      {
        assert ms[i] == ConstructAll(Current, c1, ks[1..]).0[i - 1];
        assert ks[i] == ks[1..][i - 1];
      }
    }
  }
}

=== FILE: sender.dfy ===
/** `BaseMessage.send` of both copies of the protocol module and the mesh override
    `AddRigidBodyMeshMessage.send` of message.py. Each attempt is one round trip to the server;
    the environment's answers to successive attempts are given as a sequence of `Reply` values. */
module Sender {
  import opened Wire
  import opened MessageTypes

  /** What an attempt gets back: a `ResponseMessage` (`Ack`), some other unpickled object
      (`Garbage`), or an exception before a reply could be examined (`Broken`: the connection
      could not be made or was reset, or `pickle.loads` of the reply raised; none of these is
      caught by `send`). */
  datatype Reply = Garbage | Ack(idx: int, err: string) | Broken

  /** The reply acknowledges request `reqIdx` without error. */
  predicate Accepted(reply: Reply, reqIdx: int) {
    reply.Ack? && reply.idx == reqIdx && reply.err == ""
  }

  function DigitChar(d: nat): char
    requires d < 10
  {
    "0123456789"[d]
  }

  function NatText(n: nat): (s: string)
    ensures |s| > 0
    decreases n
  {
    if n < 10 then [DigitChar(n)] else NatText(n / 10) + [DigitChar(n % 10)]
  }

  function IntText(n: int): (s: string)
    ensures |s| > 0
  {
    if n < 0 then "-" + NatText(-n) else NatText(n)
  }

  /** The reason given for a reply to another request. */
  function MismatchReason(reqIdx: int, resIdx: int): (reason: string)
    ensures |reason| > 0
  {
    "REQ_IDX=" + IntText(reqIdx) + ", RES_IDX=" + IntText(resIdx)
  }

  /** `error_reason`, computed from a reply that arrived. */
  function ErrorReason(reply: Reply, reqIdx: int): (reason: string)
    requires !reply.Broken?
    ensures reason == "" <==> Accepted(reply, reqIdx)
    ensures reply.Ack? && reply.idx != reqIdx ==> reason != ""
  {
    match reply
    case Garbage => "corrupted response"
    case Ack(i, e) =>
      if i != reqIdx then MismatchReason(reqIdx, i) else e
  }

  /** The sending object: a message of message.py (its class, and whether that class has a
      readable `type` attribute; none of the classes in message.py defines one), or a message of
      mesage.py, whose classes all define `type` as a method. */
  datatype Sender = CurrentSender(cls: Class, hasType: bool) | LegacySender(legacyCls: LegacyClass)

  /** The test deciding between raising and warning once retries run out. message.py tests the
      class (`Chunk` is a subclass of neither critical class); mesage.py compares `self.type`
      with a tag, which never holds. */
  predicate Critical(s: Sender) {
    match s
    case CurrentSender(c, _) => c == MeshClass || c == PrimitiveClass
    case LegacySender(c) => LegacyCriticalTest(c)
  }

  /** The warning f-strings read `self.type`; without such an attribute they raise. */
  predicate TypeReadable(s: Sender) {
    match s
    case CurrentSender(_, t) => t
    case LegacySender(_) => true
  }

  /** The socket a mesage.py message keeps in `self.client`. */
  datatype Conn = NoClient | Open | Closed

  datatype Outcome =
    | Delivered  // an attempt was accepted
    | Fatal      // retries ran out on a critical message: `raise`
    | Dropped    // retries ran out on any other message: a warning, nothing raised
    | Crashed    // an exception escaped an attempt

  predicate Raises(o: Outcome) {
    o == Fatal || o == Crashed
  }

  /** One call of `send` and its recursive retries: the outcome, the number of attempts, the
      sockets created and closed, and the socket `self.client` holds afterwards (mesage.py). */
  datatype Trace = Trace(outcome: Outcome, attempts: nat, socketsMade: nat, socketsClosed: nat, conn: Conn)

  /** `send` recurses while `retry_times < 3`. */
  const MaxRetries: nat := 3

  /** The number of attempts a call with `retryTimes` can make. */
  function AttemptBudget(retryTimes: nat): (n: nat)
    ensures 1 <= n <= MaxRetries + 1
    ensures retryTimes == 0 ==> n == MaxRetries + 1
  {
    if retryTimes < MaxRetries then MaxRetries - retryTimes + 1 else 1
  }

  /** The socket an attempt uses and the number of sockets it creates: message.py opens a new
      one on every attempt; mesage.py opens one only when `self.client` is `None`. mesage.py's
      `ResponseMessage.__init__` skips the base class's, so a response has no `self.client` at
      all: the test `self.client == None` raises `AttributeError`, no socket is made and `conn`
      is left as it was. */
  function Connect(s: Sender, conn: Conn): (Conn, nat) {
    if s.CurrentSender? then (Open, 1)
    else if s.legacyCls == LegacyResponse then (conn, 0)
    else if conn == NoClient then (Open, 1)
    else (conn, 0)
  }

  /** `send(retry_times)`; `conn` is the socket held in `self.client` on entry (mesage.py only). */
  function Send(s: Sender, idx: int, conn: Conn, replies: seq<Reply>, retryTimes: nat): (t: Trace)
    requires |replies| >= AttemptBudget(retryTimes)
    ensures 1 <= t.attempts <= AttemptBudget(retryTimes)
    ensures t.outcome == Fatal ==> Critical(s)
    decreases |replies|
  {
    var (socket, made) := Connect(s, conn);
    if s.LegacySender? || replies[0].Broken? then
      // mesage.py stores the new socket in `self.client` before `connect`, which the string port
      // makes raise; with a socket already stored, `pickle.dumps(self)` raises on it; a response,
      // lacking `self.client`, raises at the test for it. Otherwise the round trip itself raised.
      Trace(Crashed, 1, made, 0, socket)
    else
      var reason := ErrorReason(replies[0], idx);
      if |reason| == 0 then
        Trace(Delivered, 1, made, 1, Closed)
      else if retryTimes < MaxRetries then
        if !TypeReadable(s) then
          // the warning is formatted before the socket is closed
          Trace(Crashed, 1, made, 0, socket)
        else
          var t := Send(s, idx, Closed, replies[1..], retryTimes + 1);
          Trace(t.outcome, t.attempts + 1, t.socketsMade + made, t.socketsClosed + 1, t.conn)
      else if Critical(s) then
        Trace(Fatal, 1, made, 1, Closed)
      else if !TypeReadable(s) then
        // the socket is closed, then the warning raises
        Trace(Crashed, 1, made, 1, Closed)
      else
        Trace(Dropped, 1, made, 1, Closed)
  }

  /** An attempt can reach the round trip: every attempt of message.py can, none of mesage.py's
      does, since each raises at `connect` or at `pickle.dumps(self)` first. */
  predicate Transmits(s: Sender) {
    s.CurrentSender?
  }

  /** A rejected reply with retries left, in message.py and with a readable `type`, leads to
      exactly one retry on a fresh socket: the call ends as the retry does, one attempt later. */
  lemma RetryStep(s: Sender, idx: int, conn: Conn, replies: seq<Reply>, retryTimes: nat)
    requires |replies| >= AttemptBudget(retryTimes) && retryTimes < MaxRetries
    requires TypeReadable(s) && Transmits(s)
    requires !replies[0].Broken? && !Accepted(replies[0], idx)
    ensures |replies[1..]| >= AttemptBudget(retryTimes + 1) == AttemptBudget(retryTimes) - 1
    ensures Send(s, idx, conn, replies, retryTimes).outcome ==
      Send(s, idx, Closed, replies[1..], retryTimes + 1).outcome
    ensures Send(s, idx, conn, replies, retryTimes).attempts ==
      Send(s, idx, Closed, replies[1..], retryTimes + 1).attempts + 1
  {
    assert ErrorReason(replies[0], idx) != "";
  }

  /** The sockets of a retried call: those of the retry, plus the one this attempt opened and
      closed before retrying. */
  lemma RetryStepSockets(s: Sender, idx: int, conn: Conn, replies: seq<Reply>, retryTimes: nat)
    requires |replies| >= AttemptBudget(retryTimes) && retryTimes < MaxRetries
    requires TypeReadable(s) && Transmits(s)
    requires !replies[0].Broken? && !Accepted(replies[0], idx)
    ensures Send(s, idx, conn, replies, retryTimes).socketsMade ==
      Send(s, idx, Closed, replies[1..], retryTimes + 1).socketsMade + Connect(s, conn).1
    ensures Send(s, idx, conn, replies, retryTimes).socketsClosed ==
      Send(s, idx, Closed, replies[1..], retryTimes + 1).socketsClosed + 1
  {
    assert ErrorReason(replies[0], idx) != "";
  }

  /** The attempt is retried: its reply arrived and was rejected, retries are left, and the
      warning can be formatted. */
  predicate Retried(s: Sender, idx: int, conn: Conn, replies: seq<Reply>, retryTimes: nat)
    requires |replies| >= 1
  {
    Transmits(s) && !replies[0].Broken? && !Accepted(replies[0], idx) && retryTimes < MaxRetries
    && TypeReadable(s)
  }

  /** An attempt that is not retried is the only one the call makes: success only on an
      accepted reply, the critical error or a drop only with no retries left, a drop only for a
      message that is not critical, and at most its own socket closed. */
  lemma SingleAttempt(s: Sender, idx: int, conn: Conn, replies: seq<Reply>, retryTimes: nat)
    requires |replies| >= AttemptBudget(retryTimes) && !Retried(s, idx, conn, replies, retryTimes)
    ensures var t := Send(s, idx, conn, replies, retryTimes);
      && t.attempts == 1
      && (t.outcome == Delivered ==> Accepted(replies[0], idx))
      && (t.outcome == Fatal || t.outcome == Dropped ==> retryTimes >= MaxRetries)
      && (t.outcome == Dropped ==> !Critical(s))
      && t.socketsMade == Connect(s, conn).1
      && (t.outcome != Crashed ==> t.socketsClosed == 1)
      && t.socketsClosed <= 1
  {
    if Transmits(s) && !replies[0].Broken? {
      assert ErrorReason(replies[0], idx) == "" <==> Accepted(replies[0], idx);
    }
  }

  /** Every attempt before the last received a reply that was rejected. */
  lemma {:induction false} SendRejectedBeforeLast(s: Sender, idx: int, conn: Conn, replies: seq<Reply>, retryTimes: nat)
    requires |replies| >= AttemptBudget(retryTimes)
    ensures var t := Send(s, idx, conn, replies, retryTimes);
      forall k :: 0 <= k < t.attempts - 1 ==> !replies[k].Broken? && !Accepted(replies[k], idx)
    decreases |replies|
  {
    if Retried(s, idx, conn, replies, retryTimes) {
      RetryStep(s, idx, conn, replies, retryTimes);
      SendRejectedBeforeLast(s, idx, Closed, replies[1..], retryTimes + 1);
      var t := Send(s, idx, Closed, replies[1..], retryTimes + 1);
      forall k | 0 <= k < t.attempts
        ensures replies[k + 1] == replies[1..][k]
      {
      }
    } else {
      SingleAttempt(s, idx, conn, replies, retryTimes);
    }
  }

  /** A delivered message had the reply to its last attempt accepted. */
  lemma {:induction false} SendDeliveredAccepted(s: Sender, idx: int, conn: Conn, replies: seq<Reply>, retryTimes: nat)
    requires |replies| >= AttemptBudget(retryTimes)
    ensures var t := Send(s, idx, conn, replies, retryTimes);
      t.outcome == Delivered ==> Accepted(replies[t.attempts - 1], idx)
    decreases |replies|
  {
    if Retried(s, idx, conn, replies, retryTimes) {
      RetryStep(s, idx, conn, replies, retryTimes);
      SendDeliveredAccepted(s, idx, Closed, replies[1..], retryTimes + 1);
      var t0 := Send(s, idx, conn, replies, retryTimes);
      var t := Send(s, idx, Closed, replies[1..], retryTimes + 1);
      if t0.outcome == Delivered {
        assert t.outcome == Delivered && t0.attempts - 1 == t.attempts;
        assert replies[t0.attempts - 1] == replies[1..][t.attempts - 1];
      }
    } else {
      SingleAttempt(s, idx, conn, replies, retryTimes);
    }
  }

  /** The critical error and the drop both come only after the whole budget of attempts, and a
      drop only for a message that is not critical. */
  lemma {:induction false} SendExhausts(s: Sender, idx: int, conn: Conn, replies: seq<Reply>, retryTimes: nat)
    requires |replies| >= AttemptBudget(retryTimes)
    ensures var t := Send(s, idx, conn, replies, retryTimes);
      (t.outcome == Fatal || t.outcome == Dropped) ==> t.attempts == AttemptBudget(retryTimes)
    ensures Send(s, idx, conn, replies, retryTimes).outcome == Dropped ==> !Critical(s)
    decreases |replies|
  {
    if Retried(s, idx, conn, replies, retryTimes) {
      RetryStep(s, idx, conn, replies, retryTimes);
      SendExhausts(s, idx, Closed, replies[1..], retryTimes + 1);
    } else {
      SingleAttempt(s, idx, conn, replies, retryTimes);
    }
  }

  /** message.py opens a socket on every attempt and closes each one unless an exception
      escapes; mesage.py opens one only when it holds none and is not a response, and closes
      none. */
  lemma {:induction false} SendSockets(s: Sender, idx: int, conn: Conn, replies: seq<Reply>, retryTimes: nat)
    requires |replies| >= AttemptBudget(retryTimes)
    ensures var t := Send(s, idx, conn, replies, retryTimes);
      s.CurrentSender? ==> t.socketsMade == t.attempts && (t.outcome != Crashed ==> t.socketsClosed == t.socketsMade)
    ensures var t := Send(s, idx, conn, replies, retryTimes);
      s.LegacySender? ==>
        t.socketsMade == (if conn == NoClient && s.legacyCls != LegacyResponse then 1 else 0)
        && t.socketsClosed == 0
    decreases |replies|
  {
    if Retried(s, idx, conn, replies, retryTimes) {
      RetryStep(s, idx, conn, replies, retryTimes);
      RetryStepSockets(s, idx, conn, replies, retryTimes);
      SendSockets(s, idx, Closed, replies[1..], retryTimes + 1);
    } else {
      SingleAttempt(s, idx, conn, replies, retryTimes);
    }
  }

  /** An attempt that is accepted ends the call with success, after exactly as many attempts as
      it took to get there, provided every earlier attempt received a (rejected) reply. */
  lemma {:induction false} DeliveredAtFirstAccepted(s: Sender, idx: int, conn: Conn, replies: seq<Reply>, retryTimes: nat, k: nat)
    requires |replies| >= AttemptBudget(retryTimes)
    requires TypeReadable(s) && Transmits(s)
    requires k < AttemptBudget(retryTimes) && Accepted(replies[k], idx)
    requires forall j :: 0 <= j < k ==> !replies[j].Broken? && !Accepted(replies[j], idx)
    ensures Send(s, idx, conn, replies, retryTimes).outcome == Delivered
    ensures Send(s, idx, conn, replies, retryTimes).attempts == k + 1
    decreases k
  {
    if k > 0 {
      RetryStep(s, idx, conn, replies, retryTimes);
      assert replies[1..][k - 1] == replies[k];
      DeliveredAtFirstAccepted(s, idx, Closed, replies[1..], retryTimes + 1, k - 1);
    }
  }

  /** Sustained failure: when every attempt receives a reply that is rejected, exactly the
      budget of attempts is made (four for a first call), and the call then raises for a critical
      message and drops any other. */
  lemma {:induction false} SustainedFailure(s: Sender, idx: int, conn: Conn, replies: seq<Reply>, retryTimes: nat)
    requires |replies| >= AttemptBudget(retryTimes)
    requires TypeReadable(s) && Transmits(s)
    requires forall j :: 0 <= j < AttemptBudget(retryTimes) ==> !replies[j].Broken? && !Accepted(replies[j], idx)
    ensures Send(s, idx, conn, replies, retryTimes).attempts == AttemptBudget(retryTimes)
    ensures Send(s, idx, conn, replies, retryTimes).outcome == (if Critical(s) then Fatal else Dropped)
    decreases AttemptBudget(retryTimes)
  {
    if retryTimes < MaxRetries {
      RetryStep(s, idx, conn, replies, retryTimes);
      SustainedFailure(s, idx, Closed, replies[1..], retryTimes + 1);
    } else {
      assert ErrorReason(replies[0], idx) != "";
    }
  }

  /** An attempt that raises ends the call there: nothing is retried after an exception, and in
      message.py that attempt's socket is left open. */
  lemma {:induction false} BrokenAttemptCrashes(s: Sender, idx: int, conn: Conn, replies: seq<Reply>, retryTimes: nat, k: nat)
    requires |replies| >= AttemptBudget(retryTimes)
    requires TypeReadable(s) && Transmits(s)
    requires k < AttemptBudget(retryTimes) && replies[k].Broken?
    requires forall j :: 0 <= j < k ==> !replies[j].Broken? && !Accepted(replies[j], idx)
    ensures Send(s, idx, conn, replies, retryTimes).outcome == Crashed
    ensures Send(s, idx, conn, replies, retryTimes).attempts == k + 1
    ensures s.CurrentSender? ==> Send(s, idx, conn, replies, retryTimes).socketsClosed == k
    decreases k
  {
    if k > 0 {
      RetryStep(s, idx, conn, replies, retryTimes);
      RetryStepSockets(s, idx, conn, replies, retryTimes);
      assert replies[1..][k - 1] == replies[k];
      BrokenAttemptCrashes(s, idx, Closed, replies[1..], retryTimes + 1, k - 1);
    }
  }

  /** mesage.py: every call of `send` raises at its first attempt, before any reply is read,
      whatever the class and the replies, and closes no socket. A message other than a response
      that holds no socket is left holding the one it created; a response, which has no
      `self.client`, creates none. */
  lemma LegacySendCrashes(c: LegacyClass, idx: int, conn: Conn, replies: seq<Reply>, retryTimes: nat)
    requires |replies| >= AttemptBudget(retryTimes)
    ensures var t := Send(LegacySender(c), idx, conn, replies, retryTimes);
      t.outcome == Crashed && t.attempts == 1 && t.socketsClosed == 0
      && t.socketsMade == (if conn == NoClient && c != LegacyResponse then 1 else 0)
      && t.conn == (if conn == NoClient && c != LegacyResponse then Open else conn)
    ensures c == LegacyResponse ==>
      Send(LegacySender(c), idx, conn, replies, retryTimes) == Trace(Crashed, 1, 0, 0, conn)
  {
  }

  /** mesage.py: a second call on the same message reuses the socket the first one left in
      `self.client` and raises at `pickle.dumps(self)`, creating no socket; a response raises at
      the test for `self.client` again. So no call on a mesage.py message ever reaches the
      server. */
  lemma LegacyResendCrashes(c: LegacyClass, idx: int, first: seq<Reply>, second: seq<Reply>)
    requires |first| >= AttemptBudget(0) && |second| >= AttemptBudget(0)
    ensures var t1 := Send(LegacySender(c), idx, NoClient, first, 0);
      var t2 := Send(LegacySender(c), idx, t1.conn, second, 0);
      t1.outcome == Crashed && t2 == Trace(Crashed, 1, 0, 0, if c == LegacyResponse then NoClient else Open)
  {
    LegacySendCrashes(c, idx, NoClient, first, 0);
  }

  /** message.py: sustained failure of a first call makes four attempts, each on its own socket,
      closes all of them, and raises exactly for the mesh and primitive messages. */
  lemma CurrentExhaustedRetries(cls: Class, idx: int, replies: seq<Reply>)
    requires |replies| >= MaxRetries + 1
    requires forall j :: 0 <= j < MaxRetries + 1 ==> !replies[j].Broken? && !Accepted(replies[j], idx)
    ensures Send(CurrentSender(cls, true), idx, NoClient, replies, 0).attempts == MaxRetries + 1
    ensures Send(CurrentSender(cls, true), idx, NoClient, replies, 0).socketsMade == MaxRetries + 1
    ensures Send(CurrentSender(cls, true), idx, NoClient, replies, 0).socketsClosed == MaxRetries + 1
    ensures Send(CurrentSender(cls, true), idx, NoClient, replies, 0).outcome ==
      (if cls == MeshClass || cls == PrimitiveClass then Fatal else Dropped)
  {
    SustainedFailure(CurrentSender(cls, true), idx, NoClient, replies, 0);
    SendSockets(CurrentSender(cls, true), idx, NoClient, replies, 0);
  }

  /** message.py as shown: a class without a `type` attribute cannot retry, because the retry
      warning raises `AttributeError` on its first rejected reply, leaving that socket open. */
  lemma MissingTypeCrashesOnRetry(cls: Class, idx: int, replies: seq<Reply>, retryTimes: nat)
    requires |replies| >= AttemptBudget(retryTimes) && retryTimes < MaxRetries
    requires !replies[0].Broken? && !Accepted(replies[0], idx)
    ensures Send(CurrentSender(cls, false), idx, NoClient, replies, retryTimes) == Trace(Crashed, 1, 1, 0, Open)
  {
  }

  lemma PeelOneBudget(n: nat, b: nat)
    requires n >= 1
    ensures n * b == (n - 1) * b + b
  {
  }

  /** One call of `send` in a mesh transfer: the message put on the wire and how it ended. */
  datatype SendRecord = SendRecord(sent: Message, trace: Trace)

  /** The loop `for chunk in chunks: chunk.send(retry_times)`, stopping at the first exception.
      Replies are consumed attempt by attempt across the successive sends. */
  function SendChunks(chunks: seq<Chunk>, hasType: bool, replies: seq<Reply>, retryTimes: nat): (r: (seq<SendRecord>, bool))
    requires |replies| >= |chunks| * AttemptBudget(retryTimes)
    ensures |r.0| <= |chunks|
    ensures forall i :: 0 <= i < |r.0| ==> r.0[i].sent == MeshChunk(chunks[i])
    ensures forall i :: 0 <= i < |r.0| ==> r.0[i].trace.outcome != Fatal
    ensures r.1 <==> r.0 != [] && Raises(r.0[|r.0| - 1].trace.outcome)
    ensures !r.1 ==> |r.0| == |chunks|
    ensures forall i :: 0 <= i < |r.0| - 1 ==> !Raises(r.0[i].trace.outcome)
    decreases |chunks|
  {
    if chunks == [] then ([], false)
    else
      var b := AttemptBudget(retryTimes);
      var t := Send(CurrentSender(ChunkClass, hasType), chunks[0].idx, NoClient, replies, retryTimes);
      var record := SendRecord(MeshChunk(chunks[0]), t);
      if Raises(t.outcome) then ([record], true)
      else
        PeelOneBudget(|chunks|, b);
        var (rest, raised) := SendChunks(chunks[1..], hasType, replies[t.attempts..], retryTimes);
        PrependRecord(chunks, record, rest);
        ([record] + rest, raised)
  }

  /** The log facts of `SendChunks` carry over from the sends after the first to the whole loop. */
  lemma PrependRecord(chunks: seq<Chunk>, record: SendRecord, rest: seq<SendRecord>)
    requires chunks != [] && record.sent == MeshChunk(chunks[0])
    requires record.trace.outcome != Fatal && !Raises(record.trace.outcome)
    requires |rest| <= |chunks| - 1
    requires forall i :: 0 <= i < |rest| ==> rest[i].sent == MeshChunk(chunks[1..][i])
    requires forall i :: 0 <= i < |rest| ==> rest[i].trace.outcome != Fatal
    requires forall i :: 0 <= i < |rest| - 1 ==> !Raises(rest[i].trace.outcome)
    ensures forall i :: 0 <= i < |[record] + rest| ==> ([record] + rest)[i].sent == MeshChunk(chunks[i])
    ensures forall i :: 0 <= i < |[record] + rest| ==> ([record] + rest)[i].trace.outcome != Fatal
    ensures forall i :: 0 <= i < |[record] + rest| - 1 ==> !Raises(([record] + rest)[i].trace.outcome)
  {
    var log := [record] + rest;
    forall i | 0 <= i < |log|
      ensures log[i].sent == MeshChunk(chunks[i]) && log[i].trace.outcome != Fatal
    {
      if i > 0 {
        assert log[i] == rest[i - 1] && chunks[1..][i - 1] == chunks[i];
      }
    }
    forall i | 0 <= i < |log| - 1
      ensures !Raises(log[i].trace.outcome)
    {
      if i > 0 {
        assert log[i] == rest[i - 1];
      }
    }
  }

  /** The result of `AddRigidBodyMeshMessage.send`: the sends made, whether an exception escaped,
      and the message object afterwards. */
  datatype MeshSendResult = MeshSendResult(log: seq<SendRecord>, raised: bool, after: Mesh)

  /** `AddRigidBodyMeshMessage.send`: the chunks are detached, the parent is sent without them,
      then each chunk is sent, and the chunks are put back. A retry of the parent re-enters this
      override with no chunks attached, which sends no chunk and restores the empty list, so it
      behaves as a plain retry. An exception skips the restoring assignment. */
  function MeshSend(m: Mesh, hasType: bool, replies: seq<Reply>, retryTimes: nat): (r: MeshSendResult)
    requires |replies| >= (|m.chunks| + 1) * AttemptBudget(retryTimes)
    ensures r.log != [] && r.log[0].sent == AddMesh(m.(chunks := []))
    ensures |r.log| <= |m.chunks| + 1
    ensures forall i :: 1 <= i < |r.log| ==> r.log[i].sent == MeshChunk(m.chunks[i - 1])
    ensures forall i :: 0 <= i < |r.log| - 1 ==> !Raises(r.log[i].trace.outcome)
    ensures r.raised <==> Raises(r.log[|r.log| - 1].trace.outcome)
    ensures !r.raised ==> |r.log| == |m.chunks| + 1 && r.after == m
    ensures r.raised ==> r.after == m.(chunks := [])
  {
    var detached := m.(chunks := []);
    var b := AttemptBudget(retryTimes);
    var t := Send(CurrentSender(MeshClass, hasType), m.idx, NoClient, replies, retryTimes);
    var first := SendRecord(AddMesh(detached), t);
    if Raises(t.outcome) then MeshSendResult([first], true, detached)
    else
      PeelOneBudget(|m.chunks| + 1, b);
      var (rest, raised) := SendChunks(m.chunks, hasType, replies[t.attempts..], retryTimes);
      PrependParent(m, first, rest, raised);
      MeshSendResult([first] + rest, raised, if raised then detached else m)
  }

  /** The log facts of `SendChunks` carry over to the log that starts with the parent's send. */
  lemma PrependParent(m: Mesh, first: SendRecord, rest: seq<SendRecord>, raised: bool)
    requires !Raises(first.trace.outcome)
    requires |rest| <= |m.chunks|
    requires forall i :: 0 <= i < |rest| ==> rest[i].sent == MeshChunk(m.chunks[i])
    requires forall i :: 0 <= i < |rest| - 1 ==> !Raises(rest[i].trace.outcome)
    requires raised <==> rest != [] && Raises(rest[|rest| - 1].trace.outcome)
    ensures forall i :: 1 <= i < |[first] + rest| ==> ([first] + rest)[i].sent == MeshChunk(m.chunks[i - 1])
    ensures forall i :: 0 <= i < |[first] + rest| - 1 ==> !Raises(([first] + rest)[i].trace.outcome)
    ensures raised <==> Raises(([first] + rest)[|[first] + rest| - 1].trace.outcome)
  {
    var log := [first] + rest;
    forall i | 1 <= i < |log|
      ensures log[i] == rest[i - 1]
    {
    }
  }

  /** The first send of a mesh transfer is the parent's own call of `send`. */
  lemma MeshSendFirst(m: Mesh, hasType: bool, replies: seq<Reply>, retryTimes: nat)
    requires |replies| >= (|m.chunks| + 1) * AttemptBudget(retryTimes)
    ensures MeshSend(m, hasType, replies, retryTimes).log[0].trace ==
      Send(CurrentSender(MeshClass, hasType), m.idx, NoClient, replies, retryTimes)
  {
  }

  /** A call of `send` on a mesh message that raised nothing was accepted: a critical message
      is never dropped. */
  lemma CriticalSettled(hasType: bool, idx: int, replies: seq<Reply>, retryTimes: nat)
    requires |replies| >= AttemptBudget(retryTimes)
    ensures var t := Send(CurrentSender(MeshClass, hasType), idx, NoClient, replies, retryTimes);
      !Raises(t.outcome) ==> t.outcome == Delivered
  {
    SendExhausts(CurrentSender(MeshClass, hasType), idx, NoClient, replies, retryTimes);
  }

  /** A mesh send that raised nothing had its parent accepted, since a mesh message is critical
      and so is never dropped, and each chunk either accepted or dropped. */
  lemma MeshSendSettled(m: Mesh, hasType: bool, replies: seq<Reply>, retryTimes: nat)
    requires |replies| >= (|m.chunks| + 1) * AttemptBudget(retryTimes)
    ensures var r := MeshSend(m, hasType, replies, retryTimes);
      !r.raised ==> r.log[0].trace.outcome == Delivered
    ensures var r := MeshSend(m, hasType, replies, retryTimes);
      !r.raised ==> forall i :: 0 <= i < |r.log| ==> r.log[i].trace.outcome in {Delivered, Dropped}
  {
    var r := MeshSend(m, hasType, replies, retryTimes);
    MeshSendFirst(m, hasType, replies, retryTimes);
    CriticalSettled(hasType, m.idx, replies, retryTimes);
    LogSettled(r.log, r.raised);
  }

  /** A log in which only the last call may raise, and `raised` says whether it did: when
      nothing was raised, every call ended accepted or dropped. */
  lemma LogSettled(log: seq<SendRecord>, raised: bool)
    requires log != [] && (raised <==> Raises(log[|log| - 1].trace.outcome))
    requires forall i :: 0 <= i < |log| - 1 ==> !Raises(log[i].trace.outcome)
    ensures !raised ==> forall i :: 0 <= i < |log| ==> log[i].trace.outcome in {Delivered, Dropped}
  {
  }
}

=== FILE: server.dfy ===
/** `AsyncServer._handle_incoming_request` of server_util.py: the read loop that frames one
    request, the response built from `BaseMessage.unpack`, and the call into the chunk-merging
    middleware, which is made only for a request that decoded without error. The unpickler is
    foreign code and is given as a function from bytes to its result. */
module Server {
  import opened Wire
  import opened Unpacking
  import opened Reassembly
  import opened Sender

  /** `reader.read(1024)`. */
  const ReadSize: nat := 1024

  /** Every read returns at most `ReadSize` bytes, as `StreamReader.read(n)` guarantees. */
  predicate Bounded(pieces: seq<Bytes>) {
    forall i :: 0 <= i < |pieces| ==> |pieces[i]| <= ReadSize
  }

  function Concat(pieces: seq<Bytes>): Bytes {
    if pieces == [] then [] else pieces[0] + Concat(pieces[1..])
  }

  /** The framing rule as a definition by cases on the first read: a short read ends the request,
      a full one is followed by the rest. The flag says whether a short read was seen; without
      one the loop is still waiting for the stream. */
  function Frame(pieces: seq<Bytes>): (Bytes, bool) {
    if pieces == [] then ([], false)
    else if |pieces[0]| < ReadSize then (pieces[0], true)
    else
      var rest := Frame(pieces[1..]);
      (pieces[0] + rest.0, rest.1)
  }

  lemma {:induction false} ConcatSnoc(pieces: seq<Bytes>, i: nat)
    requires i < |pieces|
    ensures Concat(pieces[..i + 1]) == Concat(pieces[..i]) + pieces[i]
    decreases i
  {
    if i > 0 {
      ConcatSnoc(pieces[1..], i - 1);
      assert pieces[..i + 1][1..] == pieces[1..][..i];
      assert pieces[..i][1..] == pieces[1..][..i - 1];
    } else {
      assert pieces[..1][1..] == [];
    }
  }

  /** Once the first `used` reads are all full, the frame is their bytes followed by the frame of
      what remains. */
  lemma {:induction false} FrameAfterFullReads(pieces: seq<Bytes>, used: nat)
    requires used <= |pieces|
    requires forall i :: 0 <= i < used ==> |pieces[i]| == ReadSize
    ensures Frame(pieces) == (Concat(pieces[..used]) + Frame(pieces[used..]).0, Frame(pieces[used..]).1)
    decreases used
  {
    if used > 0 {
      FrameAfterFullReads(pieces[1..], used - 1);
      var prefix := pieces[..used];
      assert prefix[0] == pieces[0] && prefix[1..] == pieces[1..][..used - 1];
      assert Concat(prefix) == pieces[0] + Concat(pieces[1..][..used - 1]);
      assert pieces[1..][used - 1..] == pieces[used..];
      assert Frame(pieces) == (pieces[0] + Frame(pieces[1..]).0, Frame(pieces[1..]).1);
      var rest := Frame(pieces[used..]);
      assert Frame(pieces[1..]).0 == Concat(pieces[1..][..used - 1]) + rest.0;
      assert Frame(pieces).0 == pieces[0] + (Concat(pieces[1..][..used - 1]) + rest.0);
      assert Frame(pieces).0 == Concat(prefix) + rest.0;
      assert Frame(pieces).1 == rest.1;
    } else {
      assert pieces[..0] == [] && pieces[0..] == pieces;
      assert [] + Frame(pieces).0 == Frame(pieces).0;
    }
  }

  /** The read loop. It returns the request bytes, the number of reads consumed, and whether a
      short read ended the request. */
  method ReadRequest(pieces: seq<Bytes>) returns (data: Bytes, used: nat, complete: bool)
    requires Bounded(pieces)
    ensures (data, complete) == Frame(pieces)
    ensures used <= |pieces| && data == Concat(pieces[..used])
    ensures complete <==> exists i :: 0 <= i < |pieces| && |pieces[i]| < ReadSize
    ensures complete ==> used >= 1 && |pieces[used - 1]| < ReadSize
    ensures forall i :: 0 <= i < used - 1 ==> |pieces[i]| == ReadSize
    ensures !complete ==> used == |pieces|
  {
    data, used, complete := [], 0, false;
    while !complete && used < |pieces|
      invariant used <= |pieces|
      invariant data == Concat(pieces[..used])
      invariant forall i :: 0 <= i < used - 1 ==> |pieces[i]| == ReadSize
      invariant used >= 1 ==> (complete <==> |pieces[used - 1]| < ReadSize)
      invariant used == 0 ==> !complete
      decreases |pieces| - used
    {
      var line := pieces[used];
      ConcatSnoc(pieces, used);
      data := data + line;
      used := used + 1;
      complete := |line| < ReadSize;
    }
    if complete {
      FrameAfterFullReads(pieces, used - 1);
      assert pieces[used - 1..][0] == pieces[used - 1];
      assert Frame(pieces[used - 1..]) == (pieces[used - 1], true);
      ConcatSnoc(pieces, used - 1);
    } else {
      FrameAfterFullReads(pieces, used);
      assert pieces[used..] == [];
      assert data + [] == data;
    }
  }

  /** How a well-behaved stream delivers a request: full `ReadSize` slices, then the remainder if
      there is one. A zero-length remainder is never delivered while the client waits for the
      response. */
  function Segments(payload: Bytes): (pieces: seq<Bytes>)
    ensures Bounded(pieces)
    decreases |payload|
  {
    if |payload| < ReadSize then (if payload == [] then [] else [payload])
    else [payload[..ReadSize]] + Segments(payload[ReadSize..])
  }

  /** On such a stream the request is recovered exactly when its length is not a multiple of
      `ReadSize`; a request of length 0, 1024, 2048, ... leaves the loop waiting for a read that
      does not come, and only a closed stream (a final empty read) would end it. */
  lemma {:induction false} SegmentsFrame(payload: Bytes)
    ensures Frame(Segments(payload)).0 == payload
    ensures Frame(Segments(payload)).1 <==> |payload| % ReadSize != 0
    ensures Frame(Segments(payload) + [[]]) == (payload, true)
    decreases |payload|
  {
    var s := Segments(payload);
    if |payload| < ReadSize {
      if payload != [] {
        assert (s + [[]])[0] == payload;
      } else {
        assert s + [[]] == [[]];
      }
    } else {
      var head := payload[..ReadSize];
      var tail := payload[ReadSize..];
      SegmentsFrame(tail);
      assert s[1..] == Segments(tail);
      assert (s + [[]])[0] == head && (s + [[]])[1..] == Segments(tail) + [[]];
      assert head + tail == payload;
      assert |payload| % ReadSize == |tail| % ReadSize;
    }
  }

  /** What handling one request comes to: the response written back, if the coroutine gets that
      far, and the middleware's state and downstream call afterwards. */
  datatype Served = Served(response: Option<Message>, handler: Handler, delivered: Option<Delivery>)

  /** The id `request.message_idx` reads, `None` where the attribute is missing and reading it
      raises `AttributeError`. */
  function IdxAttr(v: Value): Option<int> {
    match v
    case Msg(m, _) => Some(m.Idx())
    case PyNone => None
    case Foreign(_, a) => a
  }

  /** Everything after the read loop, for the unpickler's result `u` on the request bytes. A
      failed `unpack` and a missing `message_idx` on a decoded object raise before the response
      is written; otherwise the response carries the request's id (0 when `unpack` returned
      `None`, after an `UnpicklingError` or for a pickled `None`) and the `unpack` error, and the
      middleware is called only when that error is empty. */
  function Answer(h: Handler, u: Unpickled): (r: Served)
    ensures r.response.Some? <==> !u.LoadRaised? && (u.Loaded? && !u.value.PyNone? ==> IdxAttr(u.value).Some?)
    ensures r.response.Some? ==> r.response.value.Response?
    ensures r.response.Some? && r.response.value.err == "" <==> u.Loaded? && IsTypedMessage(u.value)
    ensures u.Loaded? && !u.value.PyNone? && r.response.Some? ==>
      r.response.value.responseIdx == IdxAttr(u.value).value
    ensures u.UnpicklingError? ==> r == Served(Some(Response(0, u.reason)), h, None)
    ensures u == Loaded(PyNone) ==> r == Served(Some(Response(0, NotAMessage(PyNone))), h, None)
    ensures u.Loaded? && IsTypedMessage(u.value) ==>
      (r.handler, r.delivered) == Step(h, u.value.m)
    ensures !(u.Loaded? && IsTypedMessage(u.value)) ==> r.handler == h && r.delivered == None
  {
    match Unpack(Current, u)
    case UnpackRaised => Served(None, h, None)
    case Unpacked(request, err) =>
      if request.Some? && IdxAttr(request.value).None? then
        Served(None, h, None)
      else
        var idx := if request.Some? then IdxAttr(request.value).value else 0;
        var response := Response(idx, err);
        if err == "" then
          var (h', d) := Step(h, request.value.m);
          Served(Some(response), h', d)
        else
          Served(Some(response), h, None)
  }

  /** One connection: read the request, then answer it. Until a short read ends the request no
      response is written and the middleware is not touched. */
  method Serve(h: Handler, pieces: seq<Bytes>, unpickle: Bytes -> Unpickled) returns (s: Served)
    requires Bounded(pieces)
    ensures !Frame(pieces).1 ==> s == Served(None, h, None)
    ensures Frame(pieces).1 ==> s == Answer(h, unpickle(Frame(pieces).0))
    ensures s.delivered.Some? ==> exists i :: 0 <= i < |pieces| && |pieces[i]| < ReadSize
  {
    var data, used, complete := ReadRequest(pieces);
    if complete {
      s := Answer(h, unpickle(data));
    } else {
      s := Served(None, h, None);
    }
  }

  /** The reply the sender's `recv` and `pickle.loads` make of a written response. */
  function ReplyTo(response: Message): Reply {
    if response.Response? then Ack(response.responseIdx, response.err) else Garbage
  }

  /** Round trip with `send`: a message that arrives intact is acknowledged with the id the
      sender checks for, and the sender accepts the reply exactly when the decoded object has a
      `type` attribute, whatever state the middleware is in. */
  lemma RequestAcceptedIffTyped(h: Handler, m: Message, hasType: bool)
    ensures Answer(h, Loaded(Msg(m, hasType))).response.Some?
    ensures Accepted(ReplyTo(Answer(h, Loaded(Msg(m, hasType))).response.value), m.Idx()) <==> hasType
  {
  }

  /** A request that unpickles to `None` is answered with id 0 and the not-a-message error, which
      no sender accepts. */
  lemma NoneRequestRejected(h: Handler, idx: int)
    ensures Answer(h, Loaded(PyNone)).response == Some(Response(0, NotAMessage(PyNone)))
    ensures !Accepted(ReplyTo(Answer(h, Loaded(PyNone)).response.value), idx)
  {
  }

  /** A reply to an undecodable request never satisfies a sender: it carries id 0 and the
      unpickler's non-empty reason. */
  lemma UndecodableRequestRejected(h: Handler, reason: Reason, idx: int)
    ensures Answer(h, UnpicklingError(reason)).response.Some?
    ensures !Accepted(ReplyTo(Answer(h, UnpicklingError(reason)).response.value), idx)
  {
  }
}

=== FILE: unpacking.dfy ===
/** `BaseMessage.unpack` in both copies of the protocol module. The unpickler is foreign code:
    its result on the received bytes is given as an `Unpickled` value. */
module Unpacking {
  import opened Wire

  /** The text of an `UnpicklingError`; the unpickler's messages are never empty. */
  type Reason = s: string | |s| > 0 witness "?"

  /** A value produced by the unpickler: a message object (with or without a `type` attribute),
      Python's `None` (the pickle of `None` is a valid request), or an object of some other
      class, which may or may not carry a `message_idx` attribute. */
  datatype Value =
    | Msg(m: Message, hasType: bool)
    | PyNone
    | Foreign(typeName: string, idxAttr: Option<int>)

  /** What `pickle.loads` does with the bytes: returns a value, raises `UnpicklingError`, or
      raises some other exception (an `EOFError` on an empty string, for one). */
  datatype Unpickled = Loaded(value: Value) | UnpicklingError(reason: Reason) | LoadRaised

  /** The pair `(msg, err)` that `unpack` returns, or an exception escaping it. */
  datatype Unpacked = Unpacked(msg: Option<Value>, err: string) | UnpackRaised

  /** The value passes the check `isinstance(msg, BaseMessage) and hasattr(msg, 'type')`. */
  predicate IsTypedMessage(v: Value) {
    v.Msg? && v.hasType
  }

  /** The name inside `str(type(v))`, without the defining module's path. */
  function TypeName(v: Value): string {
    match v
    case Msg(m, _) => ClassName(ClassOf(m))
    case PyNone => "NoneType"
    case Foreign(t, _) => t
  }

  /** The error reported for a value that is not a typed message; `{type(msg)}` renders as
      `<class '...'>`. */
  function NotAMessage(v: Value): (err: string)
    ensures |err| > 0
  {
    "what is received is not a BaseMessage, but a <class '" + TypeName(v) + "'>"
  }

  /** The message `unpack` returns: the decoded value, where a decoded `None` is the same
      Python value as no message at all. */
  function Returned(v: Value): Option<Value> {
    if v.PyNone? then None else Some(v)
  }

  /** `unpack`. message.py reports an `UnpicklingError` as `(None, <its text>)`; mesage.py leaves
      `msg` unbound in that handler, so its `return` raises instead. Other exceptions of the
      unpickler are not caught by either. */
  function Unpack(v: Version, u: Unpickled): (r: Unpacked)
    ensures r.Unpacked? && r.err == "" <==> u.Loaded? && IsTypedMessage(u.value)
    ensures u.Loaded? && !u.value.PyNone? <==> r.Unpacked? && r.msg.Some?
    ensures u.Loaded? && !u.value.PyNone? ==> r.msg == Some(u.value)
    ensures u == Loaded(PyNone) ==> r == Unpacked(None, NotAMessage(PyNone))
    ensures u.LoadRaised? ==> r.UnpackRaised?
  {
    match u
    case Loaded(x) => Unpacked(Returned(x), if IsTypedMessage(x) then "" else NotAMessage(x))
    case UnpicklingError(e) =>
      (match v
       case Current => Unpacked(None, e)
       case Legacy => UnpackRaised)
    case LoadRaised => UnpackRaised
  }

  /** message.py: a decoding failure comes back as `(None, <exception text>)`, never raised. */
  lemma CurrentUnpicklingErrorReported(u: Unpickled)
    requires u.UnpicklingError?
    ensures Unpack(Current, u) == Unpacked(None, u.reason)
    ensures Unpack(Current, u).err != ""
  {
  }

  /** mesage.py: the same decoding failure escapes `unpack` as an exception. */
  lemma LegacyUnpicklingErrorRaises(u: Unpickled)
    requires u.UnpicklingError?
    ensures Unpack(Legacy, u).UnpackRaised?
  {
  }
}

=== FILE: wire.dfy ===
/** The data model shared by both copies of the protocol module (message.py and the
    older mesage.py): bytes, the message variants, and the Python classes they come from. */
module Wire {

  type Byte = b: int | 0 <= b < 256
  type Bytes = seq<Byte>

  datatype Option<+T> = None | Some(value: T)

  /** Which copy of the protocol module is meant: message.py (`Current`) or the older
      mesage.py (`Legacy`). */
  datatype Version = Current | Legacy

  /** One slice of a mesh payload (`AddRigidBodyMeshMessage.Chunk`). */
  datatype Chunk = Chunk(idx: int, meshName: string, chunkId: int, data: Bytes)

  /** A mesh message with its payload held as chunks (`AddRigidBodyMeshMessage`; the server's
      `MeshesMessage` has the same shape). `chunkNum` is the count declared at construction. */
  datatype Mesh = Mesh(idx: int, meshName: string, chunkNum: int, chunks: seq<Chunk>)

  /** The message classes of message.py that carry protocol-relevant fields. Poses, particle
      arrays and primitive parameters are opaque payloads and are not represented. */
  datatype Message =
    | AddMesh(mesh: Mesh)
    | MeshChunk(chunk: Chunk)
    | AddPrimitive(primitiveIdx: int, primitiveName: string, primitiveType: string)
    | SetParticles(particlesIdx: int, objName: string, particlesFrame: int)
    | UpdatePose(poseIdx: int, name: string, poseFrame: int)
    | Response(responseIdx: int, err: string)
  {
    /** The `message_idx` attribute. */
    function Idx(): int {
      match this
      case AddMesh(m) => m.idx
      case MeshChunk(c) => c.idx
      case AddPrimitive(i, _, _) => i
      case SetParticles(i, _, _) => i
      case UpdatePose(i, _, _) => i
      case Response(i, _) => i
    }
  }

  /** The Python class a message of message.py is an instance of. */
  datatype Class = MeshClass | ChunkClass | PrimitiveClass | ParticlesClass | PoseClass | ResponseClass

  function ClassOf(m: Message): Class {
    match m
    case AddMesh(_) => MeshClass
    case MeshChunk(_) => ChunkClass
    case AddPrimitive(_, _, _) => PrimitiveClass
    case SetParticles(_, _, _) => ParticlesClass
    case UpdatePose(_, _, _) => PoseClass
    case Response(_, _) => ResponseClass
  }

  /** The class's qualified name; `Chunk` is nested in the mesh message class. */
  function ClassName(c: Class): string {
    match c
    case MeshClass => "AddRigidBodyMeshMessage"
    case ChunkClass => "AddRigidBodyMeshMessage.Chunk"
    case PrimitiveClass => "AddRigidBodyPrimitiveMessage"
    case ParticlesClass => "SetParticlesMessage"
    case PoseClass => "UpdateRigidBodyPoseMessage"
    case ResponseClass => "ResponseMessage"
  }

  /** `mesh_file`: the chunks' bytes concatenated in list order, accumulated left to right. */
  function MeshFile(chunks: seq<Chunk>): Bytes {
    if chunks == [] then [] else MeshFile(chunks[..|chunks| - 1]) + chunks[|chunks| - 1].data
  }

  function Min(a: int, b: int): int {
    if a <= b then a else b
  }

  predicate StartsWith(s: string, prefix: string) {
    |prefix| <= |s| && s[..|prefix|] == prefix
  }
}
